=== FILE: README.md ===
# Gamified planner: progression rules and request handlers in Dafny

This project models the core of a gamified personal task planner. Users
authenticate with a bearer token, create scheduled tasks ("missions"), and
earn experience points (XP) and stat points that raise their level.

The model covers:

- **Progression rules** (`gamification.dfy`). A task's XP is scaled by the
  user's mode: monk ×1.2, recovery ×0.5, beast ×1, rounded down. A task's
  category raises one of four stats. The level curve is
  `floor(100·L^1.5)`, and its closed-form inverse is
  `floor((xp/100)^(2/3)) + 1`. Everything is exact integer arithmetic:
  - ×1.2 is `x*6/5` and ×0.5 is `x/2`;
  - the curve is the largest `n` with `n² ≤ 10000·L³`, computed by an
    integer square root;
  - the level is `1 +` the largest `k` with `10000·k³ ≤ xp²`, computed by an
    integer cube root.
- **Task-input validation** (`schemas.dfy`). A body is checked field by
  field: title length, enum membership, and datetime strings. All failing
  fields are reported, and undeclared keys are dropped.
- **Three request handlers**, each a pure state transition
  `(store, header, body, collaborators) → (store', response)`:
  - `create_task.dfy`: create a task;
  - `auth_sync.dfy`: create the initial profile and store calendar credentials;
  - `user_mode.dfy`: switch mode.

  All three share the `Bearer ` gate and the token extraction
  `header.split('Bearer ')[1]` (`auth.dfy`, `strings.dfy`).

Some things are inputs to the model rather than code:

- The identity collaborator is a function `verify: string -> Option<Decoded>`.
  `None` means verification threw.
- The ISO-datetime check is a function `isDatetime: string -> bool`.
- The id the store assigns to a new task is the `freshId` input.
- What the calendar did is the `Mirror` input.
- The clock is the `now` input.
- A request body is a parsed JSON value (`json.dfy`). `None` means `req.json()` threw.

Behaviours of the code that the model keeps as written:

- An id token that fails verification gives **500**, because
  `verifyIdToken` runs inside the handler's `try`
  (src/app/api/tasks/create/route.ts:15-17, src/app/api/auth/sync/route.ts:14-16)
  and its exception becomes "Internal Server Error". Only a missing or
  non-`Bearer ` header gives 401. test-sync.js:14-15 expects 401 for an
  invalid token.
- A created task's `statReward` is always `{intelligence, 1}`, whatever its
  category (src/app/api/tasks/create/route.ts:43). The category-to-stat table
  (`StatFor`) is used only by `UpdatedStats`.
- Nothing checks that `scheduledEnd` comes after `scheduledStart`; each is
  only required to be a datetime string (src/lib/schemas.ts:8-9).
- The two level formulas (src/lib/gamification.ts:25-33) are not inverse at
  the thresholds. In the source, a total equal to the threshold of any level
  L ≥ 2 gives level L, not L+1: for a non-square level because the threshold
  is floored (`calculateXpForNextLevel(2) = 282`, `calculateLevel(282) = 2`),
  and for a square level L = m² because `1/1.5` as a double lies below 2/3,
  so `Math.pow(m³, 1/1.5)` falls just below m² (`calculateLevel(800) = 4`,
  `calculateLevel(2700) = 9`). The exact model agrees with the source at
  non-square levels and gives L+1 at square levels (`Level(800) = 5`).
  `LevelAtThreshold` and `SampleLevels` state the model's side.
- The credentials are written with a merge write
  (src/app/api/auth/sync/route.ts:57). A token sent as an object is merged
  into a stored object key by key, at every depth (`Api.MergeField`); a
  string replaces the stored value.

## Model

| member | source | states |
|---|---|---|
| Types.ParseMode | src/types/index.ts:16 | a string is accepted as a mode exactly when it is the wire name of one of monk, recovery, beast, and the accepted mode has that name |
| Types.ParseCategory | src/types/index.ts:25 | a string is a category exactly when it is one of the five category names, and the result has that name |
| Types.ParseDifficulty | src/types/index.ts:26 | a string is a difficulty exactly when it is easy, medium or hard, and the result has that name |
| Types.NamesRoundTrip | src/types/index.ts:16-26 | the wire name of every mode, category and difficulty parses back to that member, so no two members share a name |
| Gamification.TaskXP | src/lib/gamification.ts:7-23 | beast gives the stored reward unchanged; monk gives the largest r with 5r ≤ 6·reward; recovery gives the largest r with 2r ≤ reward (floor of ×1.2 and ×0.5) |
| Gamification.ModeOrdering | src/lib/gamification.ts:13-22 | for a non-negative reward, every mode's XP is non-negative and recovery ≤ beast ≤ monk |
| Gamification.TaskXPMonotone | src/lib/gamification.ts:13-22 | a larger stored reward never yields less XP, in any mode |
| Gamification.WithDefaults | src/lib/gamification.ts:40-46 | every counter present in the stored stats keeps its value; every missing counter, or all four when the stats object is absent, becomes 0 |
| Gamification.UpdatedStats | src/lib/gamification.ts:35-65 | the counter the category selects (study→intelligence, gym/health→strength, work→discipline, life→balance) is one more than its defaulted value; the other three are unchanged |
| Gamification.UpdatedStatsAddsOnePoint | src/lib/gamification.ts:47-63 | the four counters together grow by exactly one |
| Gamification.SameStatsIffSameCounter | src/lib/gamification.ts:49-63 | two categories yield the same stats if and only if they map to the same counter (gym and health do; any other pair does not) |
| Gamification.XpForNextLevel | src/lib/gamification.ts:31-33 | the threshold r satisfies r² ≤ 10000·L³ < (r+1)², i.e. it is floor(100·L^1.5) |
| Gamification.FirstThreshold | src/lib/gamification.ts:31-33 | the threshold of level 1 is 100 |
| Gamification.XpForNextLevelIncreasing | src/lib/gamification.ts:31-33 | the threshold is strictly increasing in the level |
| Gamification.Level | src/lib/gamification.ts:25-29 | the level r is at least 1 and satisfies 10000·(r−1)³ ≤ xp² < 10000·r³, i.e. it is floor((xp/100)^(2/3)) + 1 |
| Gamification.LevelThreshold | src/lib/gamification.ts:25-28 | level ≥ L+1 holds exactly when xp² ≥ 10000·L³, the inverse of the curve stated in the source's comment |
| Gamification.LevelOneBelowHundred | src/lib/gamification.ts:25-28 | the level is 1 exactly for totals below 100 |
| Gamification.LevelMonotone | src/lib/gamification.ts:25-28 | more XP never gives a lower level |
| Gamification.LevelAtThreshold | src/lib/gamification.ts:25-33 | at the floored threshold of level L ≥ 1, the closed form gives L+1 if 10000·L³ is a perfect square and L otherwise |
| Gamification.ThresholdBoundsLevel | src/lib/gamification.ts:25-33 | no total below the threshold of L reaches level L+1, and every total above it does |
| Gamification.SampleLevels | src/lib/gamification.ts:25-33 | sample values: threshold(2)=282 with Level(282)=2 and Level(283)=3; threshold(4)=800 with Level(799)=4 and Level(800)=5; Level(0)=Level(99)=1 and Level(100)=2 |
| Strings.FirstPiece | src/app/api/tasks/create/route.ts:13 | the piece is a prefix of the text; it ends at the end of the text or where the separator begins |
| Strings.FirstPieceIsFirst | src/app/api/tasks/create/route.ts:13 | no occurrence of the separator begins inside the first piece |
| Strings.Split | src/app/api/tasks/create/route.ts:13 | split yields at least one piece, and the first is the text before the first separator |
| Strings.SplitPiecesHaveNoSeparator | src/app/api/tasks/create/route.ts:13 | no piece of a split contains the separator |
| Strings.SplitCons | src/app/api/tasks/create/route.ts:13 | when the separator occurs, the split is the first piece followed by the split of the text after that occurrence |
| Strings.JoinSplit | src/app/api/tasks/create/route.ts:13 | joining the split pieces with the separator restores the original text |
| Strings.AsciiUpper | src/app/api/tasks/create/route.ts:58 | the result has the text's length, and each character is that character upper-cased (a–z become A–Z, everything else is kept) |
| Strings.AsciiUpperIdempotent | src/app/api/tasks/create/route.ts:58 | upper-casing twice gives what upper-casing once gave |
| Strings.SplitAfterLeadingSeparator | src/app/api/tasks/create/route.ts:13 | for text that begins with the separator, piece 0 is empty and piece 1 is the text after it up to the next separator |
| Auth.BearerToken | src/app/api/tasks/create/route.ts:8-13 | a token exists exactly when the header is present and starts with `Bearer `; it is the text after the prefix up to any further `Bearer `, and never contains one |
| Auth.TokenIsRestOfHeader | src/app/api/tasks/create/route.ts:13 | with no second `Bearer `, the token is the whole rest of the header |
| Auth.SampleTokens | src/app/api/tasks/create/route.ts:8-13 | no header and a lower-case `bearer` are rejected; `Bearer abc` gives `abc`; a bare `Bearer ` gives the empty token |
| Auth.RepeatedPrefixCutsToken | src/app/api/tasks/create/route.ts:13 | `Bearer a Bearer b` gives the token `a ` |
| Auth.Authenticate | src/app/api/tasks/create/route.ts:8-18 | the gate fails exactly when there is no bearer token; otherwise the caller is verified exactly when the verifier accepts the extracted token, and the caller is what the verifier returned |
| Json.Truthy | src/app/api/auth/sync/route.ts:49-54 | exactly null, false, 0 and the empty string are falsy; arrays and objects, even empty ones, are truthy |
| Json.Destructure | src/app/api/auth/sync/route.ts:19 | destructuring throws exactly for null; a value is bound exactly for an object that has the key, and it is that member |
| Schemas.ParseTask | src/lib/schemas.ts:3-11 | a non-object is rejected; an object is accepted exactly when every declared field passes its rule; a rejection lists exactly the failing fields; an accepted input is valid and agrees with the body on every declared field |
| Schemas.InvalidExactly | src/lib/schemas.ts:3-11 | the reported fields are exactly those whose rule fails, so the report is empty exactly when every rule accepts |
| Schemas.ToJsonFields | src/lib/schemas.ts:3-11 | a body written from an input holds under each declared key exactly that field's value, and no description key when there is none |
| Schemas.FieldJsonDetermines | src/lib/schemas.ts:3-11 | two inputs that give every declared field the same value are equal |
| Schemas.ParseToJson | src/lib/schemas.ts:3-13 | every valid task input, written as a body, parses back to itself |
| Schemas.UndeclaredKeyIgnored | src/lib/schemas.ts:3-13 | adding a key that is none of the six declared fields never changes the parse result |
| Schemas.TitleRule | src/lib/schemas.ts:4 | the title is accepted exactly when it has 1 to 100 characters, whatever the other fields hold |
| CreateTask.BaseReward | src/app/api/tasks/create/route.ts:30-31 | a new task's reward is one of 10, 20, 40 |
| CreateTask.NewTask | src/app/api/tasks/create/route.ts:33-45 | the record is owned by the caller and pending; title, category, difficulty and both scheduled times are the input's; the description is the input's or empty when absent; the reward is the table's for the difficulty; the stat reward is intelligence ×1; it is created at the clock reading, with no calendar link |
| CreateTask.NewTaskKeepsInput | src/app/api/tasks/create/route.ts:27-45 | the validated input can be read back from the record, except that an explicitly empty description reads back as absent |
| CreateTask.SummaryParts | src/app/api/tasks/create/route.ts:58 | the summary is `[`, the category's name upper-cased character by character, `] `, then the title unchanged, and nothing else |
| CreateTask.EventFor | src/app/api/tasks/create/route.ts:55-69 | the event carries the task's summary, description and both scheduled times, the app tag `gamified-planner` and the new task's id |
| CreateTask.Create | src/app/api/tasks/create/route.ts:7-86 | 401 exactly without a `Bearer ` header; 400 exactly for a verified caller whose body fails validation, with its details; 200 exactly for valid input; every failure leaves the store unchanged; success adds only the new task, which is exactly the record built from the validated input (owned by the caller, pending, with the table reward and the default description), and the response echoes it without the calendar link |
| CreateTask.Accept | src/app/api/tasks/create/route.ts:27-80 | on valid input the response is 200 with the fresh id and the new task; only that task is added; an event is offered exactly when a calendar client was obtained; the stored copy carries the insert's id only when one was returned |
| CreateTask.MirrorNeverChangesResponse | src/app/api/tasks/create/route.ts:47-80 | whatever the calendar does, the response is the same and the stores differ at most in the new task's calendar link |
| CreateTask.CalendarLinkOnlyFromReturnedId | src/app/api/tasks/create/route.ts:54-74 | the calendar link is stored exactly when the insert returned a non-empty id, and it is that id; an event is requested exactly when a client was obtained |
| CreateTask.RewardNotTakenFromBody | src/app/api/tasks/create/route.ts:27-31 | an `xpReward` key in the body changes nothing about the outcome |
| CreateTask.StatRewardIgnoresCategory | src/app/api/tasks/create/route.ts:43 | the stored stat reward is always intelligence ×1, so it matches the category-to-stat table only for study tasks |
| CreateTask.SummaryFormat | src/app/api/tasks/create/route.ts:58 | the event summary is the upper-cased category in brackets, a space, and the title, e.g. `[STUDY] title` |
| CreateTask.CreatedTaskXP | src/app/api/tasks/create/route.ts:30-31 | a new task is worth 10/20/40 in beast, 12/24/48 in monk and 5/10/20 in recovery |
| AuthSync.NewProfile | src/app/api/auth/sync/route.ts:27-42 | a new profile has level 1, XP 0, all stats 0, mode beast and currency 0; its threshold equals the curve at level 1 and its level agrees with the closed form; the name defaults to Hero and the email to empty |
| Api.MergeField | src/app/api/auth/sync/route.ts:57 | a value that is not an object, or an object sent over an absent or non-object value, replaces the stored value; an object sent over an object keeps every stored key it does not mention and holds the union of both key sets |
| Api.MergeFieldKeepsStored | src/app/api/auth/sync/route.ts:57 | after a merge write, every stored member the sent value does not mention is unchanged, at every depth where both values are objects |
| Api.MergeFieldOnlyFrom | src/app/api/auth/sync/route.ts:57 | after a merge write, every member of the field, at every depth, was either sent or stored at that place; nothing else is added |
| Api.MergeFieldSample | src/app/api/auth/sync/route.ts:57 | `{"a": {"x": 1}}` written with `{"a": {"y": 2}}` becomes `{"a": {"x": 1, "y": 2}}`, and `{"a": 1}` written with it becomes `{"a": {"y": 2}}` |
| Api.MergeFieldCoversSent | src/app/api/auth/sync/route.ts:57 | after a merge write, the field holds everything that was sent, at every depth |
| Api.MergeFieldSelf | src/app/api/auth/sync/route.ts:57 | writing a value over itself changes nothing |
| Api.MergeFieldIdempotent | src/app/api/auth/sync/route.ts:57 | writing the same value twice gives what writing it once gave |
| AuthSync.MergeSecrets | src/app/api/auth/sync/route.ts:49-57 | the access token is merged into the stored one (a string replaces it) and always holds what was sent, losing no stored member it does not mention and adding none that was neither stored nor sent, at any depth; the timestamp is the clock reading; the refresh token is merged in the same way only when a truthy one was sent, and otherwise the stored one is kept |
| AuthSync.Sync | src/app/api/auth/sync/route.ts:6-66 | 401 exactly without a `Bearer ` header; every failure leaves the store unchanged; success creates the caller's profile only when absent and leaves all existing profiles as they were; secrets change only for a truthy access token and only the caller's; the response reports the profile found beforehand |
| AuthSync.Accept | src/app/api/auth/sync/route.ts:22-60 | the response reports the profile found before the request; the caller's profile is added only when absent; the caller's secrets are replaced by the merge only for a truthy access token, and nothing else changes |
| AuthSync.MergeSecretsIdempotent | src/app/api/auth/sync/route.ts:49-57 | merging the same credentials again into the result of a merge, at any clock reading, changes only the timestamp |
| AuthSync.AcceptIdempotent | src/app/api/auth/sync/route.ts:22-60 | running the success path again on its own result, at any clock reading, leaves profiles and tasks as they were; the caller's secrets change only in their timestamp, and not at all at the same reading; the second run reports the profile the first run left |
| AuthSync.SyncIdempotent | src/app/api/auth/sync/route.ts:22-60 | repeating a sync at any clock reading gives the same status, leaves profiles and tasks as after the first, and changes secrets only in their timestamps (not at all at the same reading); the repeat reports the profile the first created |
| AuthSync.RefreshTokenSurvives | src/app/api/auth/sync/route.ts:54-57 | a later sync with only an access token keeps the stored refresh token |
| UserMode.RequestedMode | src/app/api/user/mode/route.ts:17-21 | a mode is found exactly when the `mode` property is a string naming a mode, and the mode has that exact name |
| UserMode.SetMode | src/app/api/user/mode/route.ts:5-34 | 401 exactly without a `Bearer ` header; 400 exactly for a verified caller with a non-null body naming no mode; 200 exactly when the mode is valid and the profile exists (otherwise 500); every failure leaves the store unchanged; success sets only the caller's mode and updatedAt and echoes the mode |
| UserMode.ModeGovernsFutureXP | src/app/api/user/mode/route.ts:23-26 | after a switch, a task earns 6/5 of its reward (floored) when `monk` was sent, half (floored) for `recovery` and the reward itself for `beast`; level, XP, threshold and stats are unchanged |
| UserMode.SetModeIdempotent | src/app/api/user/mode/route.ts:23-28 | repeating the same switch at any clock reading gives the same response and leaves tasks, secrets and profiles as after the first, except the caller's timestamp, which becomes the second reading; at the same reading nothing changes |
| UserMode.SampleRejectedModes | src/app/api/user/mode/route.ts:19-21 | `turbo`, the capitalised `Monk`, a missing `mode` and a numeric body get 400; a null body gets 500 |

## Left out

- Gamification.TaskXP: the ×1.2 and ×0.5 are exact here. For an integer reward whose product stays below 2^50 the exact floors equal the source's double-precision results: 1.2 as a double lies below 1.2 by too little to move the product across an integer, and ×0.5 is exact. Fractional rewards, and rewards large enough to lose that margin, are not modelled.
- Gamification.Level: exact over the reals. `Math.pow(xp/100, 1/1.5)` can round just below an integer at cube boundaries, e.g. xp = 800. Negative totals, which give NaN in the source, and fractional totals are outside the `nat` parameter.
- Gamification.XpForNextLevel: exact floor of `100·L^1.5`. Negative levels, which give NaN in the source, and fractional levels, which give an ordinary value there, are outside the `nat` parameter.
- Json.Destructure: agrees with JavaScript only for keys that no prototype defines, which covers the `mode`, `accessToken` and `refreshToken` the handlers read; an inherited key (`length` of a string, `constructor` of any object) would bind the inherited value.
- Strings.AsciiUpper: upper-cases only a–z, not full Unicode case mapping; the only text it is applied to is a category name, which is ASCII.
- Api.MergeField: an empty object sent over a stored object leaves it as it was; any special treatment of empty nested maps by the store is not modelled.
- AuthSync.Sync: requests are modelled one at a time. The existence check (src/app/api/auth/sync/route.ts:23) and the create (:44) are separate store calls, so two overlapping first syncs both write a new profile, and the later write overwrites anything stored in between, such as a mode switch. SyncIdempotent covers only repeats that run one after another.
- CreateTask.Mirror: a calendar call that never settles is not an outcome. Nothing bounds `getGoogleCalendarClient` or `events.insert` with a timeout (src/app/api/tasks/create/route.ts:52-69), so a hung call withholds the 200 response that MirrorNeverChangesResponse states for every outcome that does settle.
- Task completion, update and delete handlers: src/app/api/tasks/[id]/route.ts and src/app/api/tasks/[id]/complete/route.ts are not part of this model. Their level-up, conflict and transaction behaviour is not modelled.
- Identity-token verification, the document database and the calendar client (src/lib/google-calendar.ts) are inputs, not code. Store write failures other than updating a missing profile are not modelled. The write of `calendarEventId` after an insert is assumed to succeed.
- ISO-datetime validation and conversion to timestamps: scheduled times stay the strings that were validated. The calendar event's start and end are those strings, not re-serialised ISO strings.
- Schemas.ParseTask: the title length counts Dafny characters, not UTF-16 code units. The error detail is only the set of failing fields (or "not an object"), without zod's messages. JSON numbers are integers.
- `createdAt`/`updatedAt` come from the `now` input. Console logging is not modelled.
- HTTP header-value normalisation (trimming, combining repeated headers) is not modelled; the header is the string the handler receives.
- src/lib/firebase-admin.ts (configuration), src/app/api/debug/tokens/route.ts (a debug dump of secrets), all UI and client code, and test-sync.js (a smoke test against a running server) are not part of this model.

=== FILE: api.dfy ===
/** The document store the handlers read and write, and the HTTP responses
    they return. */
module Api {
  import opened Types
  import opened Json
  import opened Schemas

  type Uid = string
  type TaskId = string

  /** A `user_secrets` document. Fields are optional because a merge write
      only ever sets some of them. */
  datatype Secrets = Secrets(googleAccessToken: Option<Json>, refreshToken: Option<Json>, updatedAt: Option<Time>)

  /** How a merge write combines the value sent for a field with the value
      stored there: a sent object is merged into a stored object key by key,
      recursively; any other sent value, or an object sent over an absent or
      non-object value, replaces the stored value whole. */
  function MergeField(stored: Option<Json>, sent: Json): (r: Json)
    decreases sent
    ensures !(sent.JObj? && stored.Some? && stored.value.JObj?) ==> r == sent
    ensures sent.JObj? ==> r.JObj?
    ensures sent.JObj? && stored.Some? && stored.value.JObj? ==>
      && r.fields.Keys == stored.value.fields.Keys + sent.fields.Keys
      && forall k :: k in stored.value.fields && k !in sent.fields ==> r.fields[k] == stored.value.fields[k]
  {
    if sent.JObj? && stored.Some? && stored.value.JObj? then
      var prev := stored.value.fields;
      JObj(map k | k in prev.Keys + sent.fields.Keys ::
             if k in sent.fields then MergeField(Lookup(prev, k), sent.fields[k]) else prev[k])
    else
      sent
  }

  /** Whether `r` holds everything `sent` says: the same value, or, for a
      sent object, an object holding each sent member recursively. */
  predicate Covers(r: Json, sent: Json)
    decreases sent
  {
    if sent.JObj? then
      r.JObj? && forall k :: k in sent.fields ==> k in r.fields && Covers(r.fields[k], sent.fields[k])
    else
      r == sent
  }

  /** What was sent is what the document then says, at every depth. */
  lemma {:induction false} MergeFieldCoversSent(stored: Option<Json>, sent: Json)
    decreases sent
    ensures Covers(MergeField(stored, sent), sent)
  {
    var r := MergeField(stored, sent);
    if sent.JObj? {
      forall k | k in sent.fields
        ensures k in r.fields && Covers(r.fields[k], sent.fields[k])
      {
        if stored.Some? && stored.value.JObj? {
          MergeFieldCoversSent(Lookup(stored.value.fields, k), sent.fields[k]);
        } else {
          MergeFieldCoversSent(Some(sent.fields[k]), sent.fields[k]);
          MergeFieldSelf(sent.fields[k]);
        }
      }
    }
  }

  /** Whether `r` keeps every stored member that `sent` does not mention, at
      every depth: where both the stored and the sent value are objects,
      each unmentioned stored member is unchanged, and each mentioned one is
      kept in the same sense recursively. A sent value that is not an object
      over an object replaces it, so nothing is required there. */
  predicate KeepsStored(r: Json, stored: Json, sent: Json)
    decreases sent
  {
    sent.JObj? && stored.JObj? ==>
      && r.JObj?
      && forall k :: k in stored.fields ==>
           && k in r.fields
           && (k !in sent.fields ==> r.fields[k] == stored.fields[k])
           && (k in sent.fields ==> KeepsStored(r.fields[k], stored.fields[k], sent.fields[k]))
  }

  /** A merge write loses nothing stored that it does not mention, at any depth. */
  lemma {:induction false} MergeFieldKeepsStored(stored: Json, sent: Json)
    decreases sent
    ensures KeepsStored(MergeField(Some(stored), sent), stored, sent)
  {
    var r := MergeField(Some(stored), sent);
    if sent.JObj? && stored.JObj? {
      forall k | k in stored.fields && k in sent.fields
        ensures KeepsStored(r.fields[k], stored.fields[k], sent.fields[k])
      {
        assert r.fields[k] == MergeField(Some(stored.fields[k]), sent.fields[k]);
        MergeFieldKeepsStored(stored.fields[k], sent.fields[k]);
      }
    }
  }

  /** Whether `r` holds nothing but what was stored or sent: where `sent` is
      an object, `r` is an object each of whose keys is a sent key or a key of
      the stored object, and each sent key's member is bounded in the same
      sense by the stored member there (none when the stored value is not an
      object). */
  predicate OnlyFrom(r: Json, stored: Option<Json>, sent: Json)
    decreases sent
  {
    var prev := if stored.Some? && stored.value.JObj? then stored.value.fields else map[];
    sent.JObj? ==>
      && r.JObj?
      && forall k :: k in r.fields ==>
           && (k in sent.fields || k in prev)
           && (k in sent.fields ==> OnlyFrom(r.fields[k], Lookup(prev, k), sent.fields[k]))
  }

  /** A merge write adds no member that was neither stored nor sent, at any depth. */
  lemma {:induction false} MergeFieldOnlyFrom(stored: Option<Json>, sent: Json)
    decreases sent
    ensures OnlyFrom(MergeField(stored, sent), stored, sent)
  {
    var r := MergeField(stored, sent);
    var prev := if stored.Some? && stored.value.JObj? then stored.value.fields else map[];
    if sent.JObj? {
      forall k | k in r.fields && k in sent.fields
        ensures OnlyFrom(r.fields[k], Lookup(prev, k), sent.fields[k])
      {
        assert r.fields[k] == MergeField(Lookup(prev, k), sent.fields[k]);
        MergeFieldOnlyFrom(Lookup(prev, k), sent.fields[k]);
      }
    }
  }

  /** A member sent inside a nested object joins the stored members there:
      `{"a": {"x": 1}}` written with `{"a": {"y": 2}}` becomes
      `{"a": {"x": 1, "y": 2}}`; over a stored scalar, the sent object is
      written as it is: `{"a": 1}` written with `{"a": {"y": 2}}` becomes
      `{"a": {"y": 2}}`. */
  lemma MergeFieldSample()
    ensures MergeField(Some(JObj(map["a" := JObj(map["x" := JNum(1)])])), JObj(map["a" := JObj(map["y" := JNum(2)])]))
         == JObj(map["a" := JObj(map["x" := JNum(1), "y" := JNum(2)])])
    ensures MergeField(Some(JObj(map["a" := JNum(1)])), JObj(map["a" := JObj(map["y" := JNum(2)])]))
         == JObj(map["a" := JObj(map["y" := JNum(2)])])
  {
    var over := MergeField(Some(JObj(map["a" := JNum(1)])), JObj(map["a" := JObj(map["y" := JNum(2)])]));
    assert over.fields.Keys == {"a"};
    var inner := MergeField(Some(JObj(map["x" := JNum(1)])), JObj(map["y" := JNum(2)]));
    assert inner.fields.Keys == {"x", "y"};
    assert inner == JObj(map["x" := JNum(1), "y" := JNum(2)]);
  }

  /** Writing a value over itself changes nothing. */
  lemma {:induction false} MergeFieldSelf(v: Json)
    decreases v
    ensures MergeField(Some(v), v) == v
  {
    if v.JObj? {
      var r := MergeField(Some(v), v);
      forall k | k in v.fields
        ensures r.fields[k] == v.fields[k]
      {
        MergeFieldSelf(v.fields[k]);
      }
    }
  }

  /** Writing the same value twice gives what writing it once gave. */
  lemma {:induction false} MergeFieldIdempotent(stored: Option<Json>, sent: Json)
    decreases sent
    ensures MergeField(Some(MergeField(stored, sent)), sent) == MergeField(stored, sent)
  {
    var once := MergeField(stored, sent);
    if sent.JObj? && stored.Some? && stored.value.JObj? {
      var twice := MergeField(Some(once), sent);
      forall k | k in sent.fields
        ensures twice.fields[k] == once.fields[k]
      {
        MergeFieldIdempotent(Lookup(stored.value.fields, k), sent.fields[k]);
      }
    } else {
      MergeFieldSelf(sent);
    }
  }

  /** The three collections: `users` and `user_secrets` keyed by uid, `tasks`
      keyed by the store-assigned document id. */
  datatype Store = Store(users: map<Uid, UserProfile>, tasks: map<TaskId, Task>, secrets: map<Uid, Secrets>)

  datatype Body =
    | ErrorMessage(message: string)
    | InvalidInput(details: ValidationError)
    | TaskCreated(taskId: TaskId, task: Task)
    | Synced(existing: Option<UserProfile>)   // None is the literal 'created'
    | ModeChanged(mode: Mode)

  datatype Response = Response(status: nat, body: Body)

  const Unauthorized: Response := Response(401, ErrorMessage("Unauthorized"))
  const ServerError: Response := Response(500, ErrorMessage("Internal Server Error"))

  /** A handler's result: the store after the request, and the response. */
  datatype Outcome = Outcome(store: Store, response: Response)
}

=== FILE: auth.dfy ===
/** The `Authorization: Bearer <token>` gate shared by every request handler,
    followed by the identity collaborator's verification of the token. */
module Auth {
  import opened Types
  import opened Strings

  const BearerPrefix: string := "Bearer "

  /** What the identity collaborator returns for a token it accepts. */
  datatype Decoded = Decoded(uid: string, email: Option<string>, name: Option<string>)

  /** The identity collaborator: a decoded token, or None when verification
      throws. Its behaviour is not modelled, only passed in. */
  type Verifier = string -> Option<Decoded>

  /** The credential of an Authorization header: None (the handler answers
      401) when the header is missing or does not start with `Bearer `,
      otherwise `header.split('Bearer ')[1]`, which is the text after the
      prefix up to any further occurrence of `Bearer `. */
  function BearerToken(header: Option<string>): (r: Option<string>)
    ensures r.Some? <==> header.Some? && StartsWith(header.value, BearerPrefix)
    ensures r.Some? ==> r.value == FirstPiece(header.value[|BearerPrefix|..], BearerPrefix)
    ensures r.Some? ==> !Contains(r.value, BearerPrefix)
  {
    if header.Some? && StartsWith(header.value, BearerPrefix) then
      SplitAfterLeadingSeparator(header.value, BearerPrefix);
      FirstPieceHasNoSeparator(header.value[|BearerPrefix|..], BearerPrefix);
      Some(Split(header.value, BearerPrefix)[1])
    else
      None
  }

  /** When the rest of the header holds no second `Bearer `, the token is all of it. */
  lemma TokenIsRestOfHeader(h: string)
    requires StartsWith(h, BearerPrefix)
    requires !Contains(h[|BearerPrefix|..], BearerPrefix)
    ensures BearerToken(Some(h)) == Some(h[|BearerPrefix|..])
  {
  }

  /** Sample headers: the prefix is case-sensitive and a bare prefix gives
      the empty token. */
  lemma SampleTokens()
    ensures BearerToken(None) == None
    ensures BearerToken(Some("bearer abc")) == None
    ensures BearerToken(Some("Bearer abc")) == Some("abc")
    ensures BearerToken(Some("Bearer ")) == Some("")
  {
    assert "bearer abc"[0] != BearerPrefix[0];
    assert FirstPiece("abc", BearerPrefix) == "abc";
    assert FirstPiece("", BearerPrefix) == "";
  }

  /** A second `Bearer ` in the header cuts the token short. */
  lemma RepeatedPrefixCutsToken()
    ensures BearerToken(Some("Bearer a Bearer b")) == Some("a ")
  {
    var h := "Bearer a Bearer b";
    var s := "a Bearer b";
    assert h[|BearerPrefix|..] == s;
    var t := FirstPiece(s, BearerPrefix);
    FirstPieceIsFirst(s, BearerPrefix);
    assert StartsWith(s[2..], BearerPrefix);
    assert s[0..][1] != BearerPrefix[1];
    assert s[1..][0] != BearerPrefix[0];
    assert |t| <= 2;
    assert |t| == 2;
    assert t == s[..2] == "a ";
  }

  /** The outcome of the gate plus verification. */
  datatype Caller =
    | NoBearer              // 401, nothing else happens
    | VerificationFailed    // verifyIdToken threw: caught by the handler, 500
    | Verified(token: Decoded)

  /** Runs the gate, then hands the extracted token, and only it, to the verifier. */
  function Authenticate(header: Option<string>, verify: Verifier): (c: Caller)
    ensures c == NoBearer <==> BearerToken(header).None?
    ensures c.Verified? <==> BearerToken(header).Some? && verify(BearerToken(header).value).Some?
    ensures c.Verified? ==> c.token == verify(BearerToken(header).value).value
  {
    match BearerToken(header)
    case None => NoBearer
    case Some(token) =>
      match verify(token)
      case None => VerificationFailed
      case Some(d) => Verified(d)
  }
}

=== FILE: auth_sync.dfy ===
/** POST /api/auth/sync: gate, create the caller's profile when none
    exists, and merge the calendar credentials into the caller's secrets. */
module AuthSync {
  import opened Types
  import opened Json
  import opened Auth
  import opened Gamification
  import opened Api

  const DefaultDisplayName: string := "Hero"

  /** The profile written on a caller's first sync. Its threshold is the
      curve's value at level 1, and its level agrees with the closed form
      for its XP. */
  function NewProfile(token: Decoded): (p: UserProfile)
    ensures p.uid == token.uid
    ensures p.level == 1 && p.currentXp == 0 && p.currency == 0 && p.mode == Beast
    ensures p.nextLevelXp == XpForNextLevel(p.level)
    ensures p.currentXp >= 0 && Level(p.currentXp) == p.level
    ensures forall k :: Counter(p.stats, k) == 0
    ensures p.displayName == (if token.name.Some? && token.name.value != "" then token.name.value else "Hero")
    ensures p.email == (if token.email.Some? then token.email.value else "")
    ensures p.updatedAt.None?
  {
    FirstThreshold();
    LevelOneBelowHundred(0);
    UserProfile(
      uid := token.uid,
      email := if token.email.Some? && token.email.value != "" then token.email.value else "",
      displayName := if token.name.Some? && token.name.value != "" then token.name.value else DefaultDisplayName,
      level := 1,
      currentXp := 0,
      nextLevelXp := BaseXp,
      stats := Stats(0, 0, 0, 0),
      mode := Beast,
      currency := 0,
      updatedAt := None)
  }

  /** A merge write of the credentials: the access token and timestamp are
      written, the refresh token only when one was sent, and every other
      field of the stored document is kept. A token sent as an object is
      merged into a stored object key by key; a string replaces the stored
      value. */
  function MergeSecrets(stored: Option<Secrets>, accessToken: Json, refreshToken: Prop, now: Time): (r: Secrets)
    ensures var base := if stored.Some? then stored.value else Secrets(None, None, None);
      && r.googleAccessToken == Some(MergeField(base.googleAccessToken, accessToken))
      && r.updatedAt == Some(now)
      && (TruthyProp(refreshToken) ==> r.refreshToken == Some(MergeField(base.refreshToken, refreshToken.v)))
      && (!TruthyProp(refreshToken) ==> r.refreshToken == base.refreshToken)
    ensures !accessToken.JObj? ==> r.googleAccessToken == Some(accessToken)
    ensures TruthyProp(refreshToken) && !refreshToken.v.JObj? ==> r.refreshToken == Some(refreshToken.v)
    ensures r.googleAccessToken.Some? && Covers(r.googleAccessToken.value, accessToken)
    ensures stored.Some? && stored.value.googleAccessToken.Some? ==>
      KeepsStored(r.googleAccessToken.value, stored.value.googleAccessToken.value, accessToken)
    ensures OnlyFrom(r.googleAccessToken.value, if stored.Some? then stored.value.googleAccessToken else None, accessToken)
  {
    var base := if stored.Some? then stored.value else Secrets(None, None, None);
    MergeFieldCoversSent(base.googleAccessToken, accessToken);
    MergeFieldOnlyFrom(base.googleAccessToken, accessToken);
    MergeFieldKeepsStored(if base.googleAccessToken.Some? then base.googleAccessToken.value else JNull, accessToken);
    var withAccess := base.(googleAccessToken := Some(MergeField(base.googleAccessToken, accessToken)), updatedAt := Some(now));
    if TruthyProp(refreshToken)
    then withAccess.(refreshToken := Some(MergeField(base.refreshToken, refreshToken.v)))
    else withAccess
  }

  /** The handler. */
  function Sync(s: Store, header: Option<string>, body: Option<Json>, verify: Verifier, now: Time): (out: Outcome)
    ensures out.response.status in {200, 401, 500}
    ensures out.response.status == 401 <==> BearerToken(header).None?
    ensures out.response.status != 200 ==> out.store == s
    ensures out.response.status == 200 <==>
      Authenticate(header, verify).Verified? && body.Some? && body.value != JNull
    ensures out.response.status == 200 ==>
      var token := Authenticate(header, verify).token;
      var uid := token.uid;
      var access := Destructure(body.value, "accessToken");
      var refresh := Destructure(body.value, "refreshToken");
      // the response reports the profile found before the request, if any
      && out.response.body == Synced(Lookup(s.users, uid))
      // profiles: the caller's is created when absent and otherwise untouched
      && out.store.users.Keys == s.users.Keys + {uid}
      && (forall u :: u in s.users ==> out.store.users[u] == s.users[u])
      && (uid !in s.users ==> out.store.users[uid] == NewProfile(token))
      && out.store.tasks == s.tasks
      // secrets: written for the caller only, and only for a truthy access token
      && (!TruthyProp(access) ==> out.store.secrets == s.secrets)
      && (TruthyProp(access) ==>
            && out.store.secrets.Keys == s.secrets.Keys + {uid}
            && (forall u :: u in s.secrets && u != uid ==> out.store.secrets[u] == s.secrets[u])
            && out.store.secrets[uid] == MergeSecrets(Lookup(s.secrets, uid), access.v, refresh, now))
  {
    match Authenticate(header, verify)
    case NoBearer => Outcome(s, Unauthorized)
    case VerificationFailed => Outcome(s, ServerError)
    case Verified(token) =>
      match body
      case None => Outcome(s, ServerError)   // the body is not JSON
      case Some(json) =>
        var access := Destructure(json, "accessToken");
        var refresh := Destructure(json, "refreshToken");
        if access.Throws? then
          Outcome(s, ServerError)               // destructuring null
        else
          Accept(s, token, access, refresh, now)
  }

  /** The success path: the caller's profile is created when absent, and the
      credentials are merged into the caller's secrets when the access token
      is truthy. */
  function Accept(s: Store, token: Decoded, access: Prop, refresh: Prop, now: Time): (out: Outcome)
    ensures out.response == Response(200, Synced(Lookup(s.users, token.uid)))
    ensures out.store.users.Keys == s.users.Keys + {token.uid}
    ensures forall u :: u in s.users ==> out.store.users[u] == s.users[u]
    ensures token.uid !in s.users ==> out.store.users[token.uid] == NewProfile(token)
    ensures out.store.tasks == s.tasks
    ensures !TruthyProp(access) ==> out.store.secrets == s.secrets
    ensures TruthyProp(access) ==>
      out.store.secrets == s.secrets[token.uid := MergeSecrets(Lookup(s.secrets, token.uid), access.v, refresh, now)]
  {
    var uid := token.uid;
    var existing := Lookup(s.users, uid);
    var users := if existing.None? then s.users[uid := NewProfile(token)] else s.users;
    var secrets :=
      if TruthyProp(access)
      then s.secrets[uid := MergeSecrets(Lookup(s.secrets, uid), access.v, refresh, now)]
      else s.secrets;
    Outcome(Store(users, s.tasks, secrets), Response(200, Synced(existing)))
  }

  /** Merging the same credentials again, at any later clock reading,
      changes only the timestamp. */
  lemma MergeSecretsIdempotent(stored: Option<Secrets>, accessToken: Json, refreshToken: Prop, now1: Time, now2: Time)
    ensures var once := MergeSecrets(stored, accessToken, refreshToken, now1);
      MergeSecrets(Some(once), accessToken, refreshToken, now2) == once.(updatedAt := Some(now2))
  {
    var base := if stored.Some? then stored.value else Secrets(None, None, None);
    MergeFieldIdempotent(base.googleAccessToken, accessToken);
    if TruthyProp(refreshToken) {
      MergeFieldIdempotent(base.refreshToken, refreshToken.v);
    }
  }

  /** The success path run twice writes nothing the first run did not,
      except the secrets' timestamp of the second run, and the second run
      finds the profile the first one left. */
  lemma AcceptIdempotent(s: Store, token: Decoded, access: Prop, refresh: Prop, now1: Time, now2: Time)
    ensures var once := Accept(s, token, access, refresh, now1);
      var twice := Accept(once.store, token, access, refresh, now2);
      && twice.store.users == once.store.users
      && twice.store.tasks == once.store.tasks
      && (!TruthyProp(access) ==> twice.store.secrets == once.store.secrets)
      && (TruthyProp(access) ==>
            twice.store.secrets == once.store.secrets[token.uid := once.store.secrets[token.uid].(updatedAt := Some(now2))])
      && (now1 == now2 ==> twice.store == once.store)
      && twice.response.body == Synced(Some(once.store.users[token.uid]))
  {
    var once := Accept(s, token, access, refresh, now1);
    var twice := Accept(once.store, token, access, refresh, now2);
    assert twice.store.users == once.store.users;
    if TruthyProp(access) {
      var merged := MergeSecrets(Lookup(s.secrets, token.uid), access.v, refresh, now1);
      assert Lookup(once.store.secrets, token.uid) == Some(merged);
      MergeSecretsIdempotent(Lookup(s.secrets, token.uid), access.v, refresh, now1, now2);
    }
  }

  /** Syncing twice with the same request, at any two clock readings, leaves
      the profiles and tasks as syncing once did; the caller's secrets differ
      at most in their timestamp, and not at all at the same reading. The
      second response reports the profile the first one created. */
  lemma SyncIdempotent(s: Store, header: Option<string>, body: Option<Json>, verify: Verifier, now1: Time, now2: Time)
    ensures var once := Sync(s, header, body, verify, now1);
      var twice := Sync(once.store, header, body, verify, now2);
      && twice.response.status == once.response.status
      && twice.store.users == once.store.users
      && twice.store.tasks == once.store.tasks
      && twice.store.secrets.Keys == once.store.secrets.Keys
      && (forall u :: u in once.store.secrets ==>
            twice.store.secrets[u].(updatedAt := once.store.secrets[u].updatedAt) == once.store.secrets[u])
      && (now1 == now2 ==> twice.store == once.store)
      && (once.response.status == 200 ==>
            twice.response.body == Synced(Some(once.store.users[Authenticate(header, verify).token.uid])))
  {
    var once := Sync(s, header, body, verify, now1);
    if once.response.status == 200 {
      var token := Authenticate(header, verify).token;
      var access := Destructure(body.value, "accessToken");
      var refresh := Destructure(body.value, "refreshToken");
      assert once == Accept(s, token, access, refresh, now1);
      AcceptIdempotent(s, token, access, refresh, now1, now2);
      assert Sync(once.store, header, body, verify, now2) == Accept(once.store, token, access, refresh, now2);
    }
  }

  /** A refresh token stored by an earlier sync survives a later sync that
      sends only an access token. */
  lemma RefreshTokenSurvives(
    s: Store, header: Option<string>, verify: Verifier, now: Time, access: string, uid: Uid, stored: Json)
    requires access != ""
    requires Authenticate(header, verify).Verified? && Authenticate(header, verify).token.uid == uid
    requires uid in s.secrets && s.secrets[uid].refreshToken == Some(stored)
    ensures var out := Sync(s, header, Some(JObj(map["accessToken" := JStr(access)])), verify, now);
      && out.store.secrets[uid].refreshToken == Some(stored)
      && out.store.secrets[uid].googleAccessToken == Some(JStr(access))
  {
    var body := JObj(map["accessToken" := JStr(access)]);
    var refresh := Destructure(body, "refreshToken");
    assert refresh == Undefined;
    assert Sync(s, header, Some(body), verify, now).store
        == Accept(s, Authenticate(header, verify).token, Value(JStr(access)), refresh, now).store;
  }
}

=== FILE: create_task.dfy ===
/** POST /api/tasks/create: gate, validation, construction of the new task
    record, and the best-effort calendar mirror. */
module CreateTask {
  import opened Types
  import opened Json
  import opened Strings
  import opened Auth
  import opened Schemas
  import opened Gamification
  import opened Api

  /** The fixed reward table; the body is never consulted for XP. */
  function BaseReward(d: Difficulty): (xp: int)
    ensures xp in {10, 20, 40}
  {
    match d
    case Easy => 10
    case Medium => 20
    case Hard => 40
  }

  /** What the calendar collaborator did for this request. */
  datatype Mirror =
    | NoClient                            // no client for the user (null)
    | ClientFailed                        // obtaining the client threw
    | InsertFailed                        // the insert call threw
    | Inserted(eventId: Option<string>)   // the insert returned; the id may be absent

  /** The event the handler asks the calendar to insert. */
  datatype CalendarEvent = CalendarEvent(
    summary: string, description: string, start: string, end: string, app: string, taskId: TaskId)

  datatype CreateOutcome = CreateOutcome(store: Store, response: Response, event: Option<CalendarEvent>)

  /** The task record built from validated input: owned by the caller,
      pending, rewarded from the difficulty table, with the fixed stat
      reward and no calendar link yet. A missing description is stored as
      the empty string. */
  function NewTask(uid: Uid, input: TaskInput, now: Time): (t: Task)
    ensures t.userId == uid && t.status == Pending
    ensures t.title == input.title && t.category == input.category && t.difficulty == input.difficulty
    ensures t.description == (if input.description.Some? then input.description.value else "")
    ensures t.scheduledStart == input.scheduledStart && t.scheduledEnd == input.scheduledEnd
    ensures t.xpReward == BaseReward(input.difficulty)
    ensures t.statReward == StatReward(Intelligence, 1)
    ensures t.createdAt == now && t.calendarEventId.None?
  {
    Task(
      userId := uid,
      title := input.title,
      description := if input.description.Some? then input.description.value else "",
      category := input.category,
      difficulty := input.difficulty,
      status := Pending,
      scheduledStart := input.scheduledStart,
      scheduledEnd := input.scheduledEnd,
      xpReward := BaseReward(input.difficulty),
      statReward := StatReward(Intelligence, 1),
      createdAt := now,
      calendarEventId := None)
  }

  /** The validated input a task record was built from; an empty
      description reads back as absent. */
  function InputOf(t: Task): TaskInput {
    TaskInput(t.title, if t.description == "" then None else Some(t.description),
              t.category, t.difficulty, t.scheduledStart, t.scheduledEnd)
  }

  /** `[CATEGORY] title`. */
  function Summary(t: Task): string {
    "[" + AsciiUpper(CategoryName(t.category)) + "] " + t.title
  }

  /** The summary is the category's name upper-cased character by character
      in brackets, one space, then the title unchanged, and nothing else. */
  lemma SummaryParts(t: Task)
    ensures var r, n := Summary(t), |CategoryName(t.category)|;
      && |r| == n + 3 + |t.title|
      && r[0] == '[' && r[n + 1..n + 3] == "] "
      && (forall i :: 0 <= i < n ==> r[1 + i] == UpperChar(CategoryName(t.category)[i]))
      && r[n + 3..] == t.title
  {
  }

  /** The event offered to the calendar: the task's summary, description and
      scheduled times, tagged with the app name and the new task's id. */
  function EventFor(t: Task, id: TaskId): (e: CalendarEvent)
    ensures e.summary == Summary(t) && e.description == t.description
    ensures e.start == t.scheduledStart && e.end == t.scheduledEnd
    ensures e.app == "gamified-planner" && e.taskId == id
  {
    CalendarEvent(Summary(t), t.description, t.scheduledStart, t.scheduledEnd, "gamified-planner", id)
  }

  /** The mirror returned an id worth recording (a truthy `event.data.id`). */
  predicate ReturnedId(m: Mirror) {
    m.Inserted? && m.eventId.Some? && m.eventId.value != ""
  }

  /** The handler. `freshId` is the id the store assigns to the added
      document; the calendar's behaviour is the `mirror` input. */
  function Create(
    s: Store, header: Option<string>, body: Option<Json>, verify: Verifier,
    isDatetime: DatetimeCheck, freshId: TaskId, now: Time, mirror: Mirror): (out: CreateOutcome)
    requires freshId !in s.tasks
    ensures out.response.status in {200, 400, 401, 500}
    // the gate: 401 exactly when there is no `Bearer ` header, before anything else
    ensures out.response.status == 401 <==> BearerToken(header).None?
    ensures out.response.status != 200 ==> out.store == s && out.event.None?
    // validation failure: 400 with the validator's details
    ensures out.response.status == 400 <==>
      Authenticate(header, verify).Verified? && body.Some? && ParseTask(body.value, isDatetime).Err?
    ensures out.response.status == 400 ==>
      out.response.body == InvalidInput(ParseTask(body.value, isDatetime).error)
    // success
    ensures out.response.status == 200 <==>
      Authenticate(header, verify).Verified? && body.Some? && ParseTask(body.value, isDatetime).Ok?
    ensures out.response.status == 200 ==>
      var uid := Authenticate(header, verify).token.uid;
      var input := ParseTask(body.value, isDatetime).value;
      && out.response.body.TaskCreated?
      && out.response.body.taskId == freshId
      && var t := out.response.body.task;
      && t.userId == uid
      && t.status == Pending
      && t.title == input.title
      && t.category == input.category
      && t.xpReward == BaseReward(input.difficulty)
      && (input.description.None? ==> t.description == "")
      && t.calendarEventId.None?
      && t == NewTask(uid, input, now)
      && out.store.users == s.users
      && out.store.secrets == s.secrets
      && out.store.tasks.Keys == s.tasks.Keys + {freshId}
      && (forall id :: id in s.tasks ==> out.store.tasks[id] == s.tasks[id])
      && out.store.tasks[freshId].(calendarEventId := None) == t
  {
    match Authenticate(header, verify)
    case NoBearer => CreateOutcome(s, Unauthorized, None)
    case VerificationFailed => CreateOutcome(s, ServerError, None)
    case Verified(token) =>
      match body
      case None => CreateOutcome(s, ServerError, None)   // the body is not JSON
      case Some(json) =>
        match ParseTask(json, isDatetime)
        case Err(e) => CreateOutcome(s, Response(400, InvalidInput(e)), None)
        case Ok(input) => Accept(s, token.uid, input, freshId, now, mirror)
  }

  /** The success path: the task is added under the fresh id, the event is
      offered to the calendar when a client exists, and the stored copy is
      linked to the event only when the insert returned an id. */
  function Accept(s: Store, uid: Uid, input: TaskInput, freshId: TaskId, now: Time, mirror: Mirror): (out: CreateOutcome)
    requires freshId !in s.tasks
    ensures out.response == Response(200, TaskCreated(freshId, NewTask(uid, input, now)))
    ensures out.store.users == s.users && out.store.secrets == s.secrets
    ensures out.store.tasks.Keys == s.tasks.Keys + {freshId}
    ensures forall id :: id in s.tasks ==> out.store.tasks[id] == s.tasks[id]
    ensures out.store.tasks[freshId].(calendarEventId := None) == NewTask(uid, input, now)
    ensures out.store.tasks[freshId].calendarEventId == (if ReturnedId(mirror) then mirror.eventId else None)
    ensures out.event == (if mirror.NoClient? || mirror.ClientFailed? then None else Some(EventFor(NewTask(uid, input, now), freshId)))
  {
    var t := NewTask(uid, input, now);
    var added := s.(tasks := s.tasks[freshId := t]);
    var event := if mirror.NoClient? || mirror.ClientFailed? then None else Some(EventFor(t, freshId));
    var linked :=
      if ReturnedId(mirror)
      then added.(tasks := added.tasks[freshId := t.(calendarEventId := mirror.eventId)])
      else added;
    CreateOutcome(linked, Response(200, TaskCreated(freshId, t)), event)
  }

  /** The calendar never decides the response: whatever the mirror did, the
      caller gets the same answer, and the stores differ at most in the new
      task's calendar link. */
  lemma MirrorNeverChangesResponse(
    s: Store, header: Option<string>, body: Option<Json>, verify: Verifier,
    isDatetime: DatetimeCheck, freshId: TaskId, now: Time, m1: Mirror, m2: Mirror)
    requires freshId !in s.tasks
    ensures var o1 := Create(s, header, body, verify, isDatetime, freshId, now, m1);
      var o2 := Create(s, header, body, verify, isDatetime, freshId, now, m2);
      && o1.response == o2.response
      && o1.store.users == o2.store.users
      && o1.store.secrets == o2.store.secrets
      && o1.store.tasks.Keys == o2.store.tasks.Keys
      && forall id :: id in o1.store.tasks ==>
           o1.store.tasks[id].(calendarEventId := None) == o2.store.tasks[id].(calendarEventId := None)
  {
    var o1 := Create(s, header, body, verify, isDatetime, freshId, now, m1);
    var o2 := Create(s, header, body, verify, isDatetime, freshId, now, m2);
    if o1.response.status == 200 {
      var uid := Authenticate(header, verify).token.uid;
      var input := ParseTask(body.value, isDatetime).value;
      assert o1 == Accept(s, uid, input, freshId, now, m1);
      assert o2 == Accept(s, uid, input, freshId, now, m2);
      AcceptIgnoresMirror(s, uid, input, freshId, now, m1, m2);
    }
  }

  lemma AcceptIgnoresMirror(s: Store, uid: Uid, input: TaskInput, freshId: TaskId, now: Time, m1: Mirror, m2: Mirror)
    requires freshId !in s.tasks
    ensures var o1 := Accept(s, uid, input, freshId, now, m1);
      var o2 := Accept(s, uid, input, freshId, now, m2);
      forall id :: id in o1.store.tasks ==>
        o1.store.tasks[id].(calendarEventId := None) == o2.store.tasks[id].(calendarEventId := None)
  {
    var o1 := Accept(s, uid, input, freshId, now, m1);
    var o2 := Accept(s, uid, input, freshId, now, m2);
    forall id | id in o1.store.tasks
      ensures o1.store.tasks[id].(calendarEventId := None) == o2.store.tasks[id].(calendarEventId := None)
    {
      if id != freshId {
        assert id in s.tasks;
      }
    }
  }

  /** The calendar link is written exactly when the insert returned an id,
      and it is that id. */
  lemma CalendarLinkOnlyFromReturnedId(
    s: Store, header: Option<string>, body: Option<Json>, verify: Verifier,
    isDatetime: DatetimeCheck, freshId: TaskId, now: Time, mirror: Mirror)
    requires freshId !in s.tasks
    ensures var o := Create(s, header, body, verify, isDatetime, freshId, now, mirror);
      o.response.status == 200 ==>
        && (o.store.tasks[freshId].calendarEventId.Some? <==> ReturnedId(mirror))
        && (ReturnedId(mirror) ==> o.store.tasks[freshId].calendarEventId == mirror.eventId)
        && (o.event.Some? <==> !(mirror.NoClient? || mirror.ClientFailed?))
  {
  }

  /** Adding an `xpReward` (or any other undeclared key) to the body changes
      nothing: the reward always comes from the difficulty table. */
  lemma RewardNotTakenFromBody(
    s: Store, header: Option<string>, m: map<string, Json>, v: Json, verify: Verifier,
    isDatetime: DatetimeCheck, freshId: TaskId, now: Time, mirror: Mirror)
    requires freshId !in s.tasks
    ensures Create(s, header, Some(JObj(m["xpReward" := v])), verify, isDatetime, freshId, now, mirror)
         == Create(s, header, Some(JObj(m)), verify, isDatetime, freshId, now, mirror)
  {
    assert forall f :: Key(f) != "xpReward";
    UndeclaredKeyIgnored(m, "xpReward", v, isDatetime);
  }

  /** The record keeps everything the caller sent: the validated input can be
      read back from the new task, except that an explicitly empty
      description reads back as absent. */
  lemma NewTaskKeepsInput(uid: Uid, input: TaskInput, now: Time)
    ensures input.description != Some("") ==> InputOf(NewTask(uid, input, now)) == input
    ensures input.description == Some("") ==> InputOf(NewTask(uid, input, now)) == input.(description := None)
  {
  }

  /** The stored stat reward names intelligence for every category, so it
      agrees with the category-to-stat table only for study tasks. */
  lemma StatRewardIgnoresCategory(uid: Uid, input: TaskInput, now: Time)
    ensures NewTask(uid, input, now).statReward == StatReward(Intelligence, 1)
    ensures NewTask(uid, input, now).statReward.kind == StatFor(input.category) <==> input.category == Study
  {
  }

  /** The calendar summary upper-cases the category in brackets before the title. */
  lemma SummaryFormat(t: Task)
    ensures t.category == Study ==> Summary(t) == "[STUDY] " + t.title
    ensures t.category == Gym ==> Summary(t) == "[GYM] " + t.title
    ensures t.category == Work ==> Summary(t) == "[WORK] " + t.title
    ensures t.category == Life ==> Summary(t) == "[LIFE] " + t.title
    ensures t.category == Health ==> Summary(t) == "[HEALTH] " + t.title
  {
    match t.category
    case Study => BracketedUpper("study", "[STUDY] ");
    case Gym => BracketedUpper("gym", "[GYM] ");
    case Work => BracketedUpper("work", "[WORK] ");
    case Life => BracketedUpper("life", "[LIFE] ");
    case Health => BracketedUpper("health", "[HEALTH] ");
  }

  /** Upper-casing a lower-case ASCII name and putting it in brackets, one
      character at a time. */
  lemma BracketedUpper(name: string, bracketed: string)
    requires |bracketed| == |name| + 3
    requires bracketed[0] == '[' && bracketed[|name| + 1] == ']' && bracketed[|name| + 2] == ' '
    requires forall i :: 0 <= i < |name| ==> 'a' <= name[i] <= 'z' && bracketed[i + 1] as int == name[i] as int - 32
    ensures "[" + AsciiUpper(name) + "] " == bracketed
  {
    var u := AsciiUpper(name);
    var front := "[" + u;
    var whole := front + "] ";
    assert |u| == |name| && |whole| == |bracketed|;
    forall i | 0 <= i < |whole|
      ensures whole[i] == bracketed[i]
    {
      if i == 0 {
        assert whole[i] == front[0] == '[';
      } else if i <= |name| {
        assert whole[i] == front[i] == u[i - 1] == UpperChar(name[i - 1]);
      } else {
        assert whole[i] == "] "[i - |front|];
      }
    }
  }

  /** What a freshly created task is worth in each mode: 12/24/48 in monk,
      10/20/40 in beast, 5/10/20 in recovery. */
  lemma CreatedTaskXP(uid: Uid, input: TaskInput, now: Time)
    ensures var t := NewTask(uid, input, now);
      && TaskXP(t, Beast) == BaseReward(input.difficulty)
      && TaskXP(t, Monk) == BaseReward(input.difficulty) * 6 / 5
      && TaskXP(t, Recovery) == BaseReward(input.difficulty) / 2
      && (input.difficulty == Easy ==> TaskXP(t, Monk) == 12 && TaskXP(t, Recovery) == 5)
      && (input.difficulty == Medium ==> TaskXP(t, Monk) == 24 && TaskXP(t, Recovery) == 10)
      && (input.difficulty == Hard ==> TaskXP(t, Monk) == 48 && TaskXP(t, Recovery) == 20)
  {
  }
}

=== FILE: gamification.dfy ===
/** Progression rules: the XP a task is worth in a given mode, the stat a
    category raises, and the level curve with its closed-form inverse.

    The source computes with floating point (`* 1.2`, `Math.pow(_, 1.5)`);
    here everything is exact integer arithmetic:
      floor(x * 1.2)            = x * 6 / 5
      floor(100 * L^1.5)        = the largest n with n*n <= 10000 * L^3
      floor((xp/100)^(2/3)) + 1 = 1 + the largest k with 10000 * k^3 <= xp*xp  */
module Gamification {
  import opened Types

  /** BASE_XP; LEVEL_CURVE_EXPONENT = 3/2 is built into the squares and cubes below. */
  const BaseXp: nat := 100

  function Cube(n: nat): nat {
    MulMonotone(0, n, n);
    MulMonotone(0, n * n, n);
    n * n * n
  }

  // ---------------------------------------------------------------------------
  // Task XP

  /** The XP a task grants in `mode`: the stored reward scaled by 1.2 (monk),
      0.5 (recovery) or 1 (beast), rounded down. */
  function TaskXP(task: Task, mode: Mode): (r: int)
    ensures mode == Beast ==> r == task.xpReward
    ensures mode == Monk ==> 5 * r <= 6 * task.xpReward < 5 * r + 5
    ensures mode == Recovery ==> 2 * r <= task.xpReward < 2 * r + 2
  {
    match mode
    case Monk => task.xpReward * 6 / 5
    case Recovery => task.xpReward / 2
    case Beast => task.xpReward
  }

  /** For a non-negative reward, every mode yields a non-negative amount and
      recovery <= beast <= monk. */
  lemma ModeOrdering(task: Task)
    requires task.xpReward >= 0
    ensures 0 <= TaskXP(task, Recovery) <= TaskXP(task, Beast) <= TaskXP(task, Monk)
  {
  }

  /** More stored reward never means less XP, in any mode. */
  lemma TaskXPMonotone(a: Task, b: Task, mode: Mode)
    requires a.xpReward <= b.xpReward
    ensures TaskXP(a, mode) <= TaskXP(b, mode)
  {
  }

  // ---------------------------------------------------------------------------
  // Stats

  /** A stats object as read from a document: any counter may be missing. */
  datatype PartialStats = PartialStats(
    intelligence: Option<int>, strength: Option<int>, discipline: Option<int>, balance: Option<int>)

  function Counter(s: Stats, k: StatKind): int {
    match k
    case Intelligence => s.intelligence
    case Strength => s.strength
    case Discipline => s.discipline
    case Balance => s.balance
  }

  function PartialCounter(p: PartialStats, k: StatKind): Option<int> {
    match k
    case Intelligence => p.intelligence
    case Strength => p.strength
    case Discipline => p.discipline
    case Balance => p.balance
  }

  /** The single category-to-stat table. */
  function StatFor(c: Category): StatKind {
    match c
    case Study => Intelligence
    case Gym => Strength
    case Health => Strength
    case Work => Discipline
    case Life => Balance
  }

  /** Zero-filled defaults overlaid with whatever counters `current` carries
      (the object spread); an absent stats object gives all zeros. */
  function WithDefaults(current: Option<PartialStats>): (s: Stats)
    ensures forall k :: current.Some? && PartialCounter(current.value, k).Some? ==>
              Counter(s, k) == PartialCounter(current.value, k).value
    ensures forall k :: (current.None? || PartialCounter(current.value, k).None?) ==>
              Counter(s, k) == 0
  {
    match current
    case None => Stats(0, 0, 0, 0)
    case Some(p) =>
      Stats(
        if p.intelligence.Some? then p.intelligence.value else 0,
        if p.strength.Some? then p.strength.value else 0,
        if p.discipline.Some? then p.discipline.value else 0,
        if p.balance.Some? then p.balance.value else 0)
  }

  /** The stats after completing a task of `category`: the counter the
      category selects goes up by one, the other three are left as they were
      (missing counters count as 0). */
  function UpdatedStats(current: Option<PartialStats>, category: Category): (r: Stats)
    ensures Counter(r, StatFor(category)) == Counter(WithDefaults(current), StatFor(category)) + 1
    ensures forall k :: k != StatFor(category) ==> Counter(r, k) == Counter(WithDefaults(current), k)
  {
    var s := WithDefaults(current);
    match category
    case Study => s.(intelligence := s.intelligence + 1)
    case Gym => s.(strength := s.strength + 1)
    case Health => s.(strength := s.strength + 1)
    case Work => s.(discipline := s.discipline + 1)
    case Life => s.(balance := s.balance + 1)
  }

  function Total(s: Stats): int {
    s.intelligence + s.strength + s.discipline + s.balance
  }

  /** Exactly one point is added across the four counters. */
  lemma UpdatedStatsAddsOnePoint(current: Option<PartialStats>, category: Category)
    ensures Total(UpdatedStats(current, category)) == Total(WithDefaults(current)) + 1
  {
    var s := WithDefaults(current);
    var r := UpdatedStats(current, category);
    match category
    case Study => assert r == s.(intelligence := s.intelligence + 1);
    case Gym => assert r == s.(strength := s.strength + 1);
    case Health => assert r == s.(strength := s.strength + 1);
    case Work => assert r == s.(discipline := s.discipline + 1);
    case Life => assert r == s.(balance := s.balance + 1);
  }

  /** Two categories produce the same stats exactly when they select the same counter. */
  lemma SameStatsIffSameCounter(current: Option<PartialStats>, c1: Category, c2: Category)
    ensures UpdatedStats(current, c1) == UpdatedStats(current, c2) <==> StatFor(c1) == StatFor(c2)
  {
    if StatFor(c1) != StatFor(c2) {
      var k := StatFor(c1);
      assert Counter(UpdatedStats(current, c1), k) != Counter(UpdatedStats(current, c2), k);
    } else {
      var r1, r2 := UpdatedStats(current, c1), UpdatedStats(current, c2);
      assert Counter(r1, Intelligence) == Counter(r2, Intelligence);
      assert Counter(r1, Strength) == Counter(r2, Strength);
      assert Counter(r1, Discipline) == Counter(r2, Discipline);
      assert Counter(r1, Balance) == Counter(r2, Balance);
    }
  }

  // ---------------------------------------------------------------------------
  // Integer roots

  /** Floor square root, by halving: isqrt(n) is 2*isqrt(n/4) or one more. */
  function ISqrt(n: nat): (r: nat)
    ensures r * r <= n < (r + 1) * (r + 1)
  {
    if n < 2 then n
    else
      var t := ISqrt(n / 4);
      SqrtStep(n, t);
      var s := 2 * t;
      if (s + 1) * (s + 1) <= n then s + 1 else s
  }

  lemma SqrtStep(n: nat, t: nat)
    requires t * t <= n / 4 < (t + 1) * (t + 1)
    ensures (2 * t) * (2 * t) <= n < (2 * t + 2) * (2 * t + 2)
  {
    var q := n / 4;
    assert (2 * t) * (2 * t) == 4 * (t * t);
    assert (2 * t + 2) * (2 * t + 2) == 4 * ((t + 1) * (t + 1));
    assert q + 1 <= (t + 1) * (t + 1);
    assert n < 4 * (q + 1);
  }

  /** Floor cube root, by halving: icbrt(n) is 2*icbrt(n/8) or one more. */
  function ICbrt(n: nat): (r: nat)
    ensures Cube(r) <= n < Cube(r + 1)
  {
    if n == 0 then 0
    else if n < 8 then 1
    else
      var t := ICbrt(n / 8);
      CbrtStep(n, t);
      var s := 2 * t;
      if Cube(s + 1) <= n then s + 1 else s
  }

  lemma CbrtStep(n: nat, t: nat)
    requires Cube(t) <= n / 8 < Cube(t + 1)
    ensures Cube(2 * t) <= n < Cube(2 * t + 2)
  {
    var q := n / 8;
    assert Cube(2 * t) == 8 * Cube(t);
    assert Cube(2 * t + 2) == 8 * Cube(t + 1);
    assert q + 1 <= Cube(t + 1);
    assert n < 8 * (q + 1);
  }

  lemma SquareMonotone(a: nat, b: nat)
    requires a <= b
    ensures a * a <= b * b
  {
    assert a * a <= a * b <= b * b;
  }

  lemma CubeMonotone(a: nat, b: nat)
    requires a <= b
    ensures Cube(a) <= Cube(b)
  {
    SquareMonotone(a, b);
    assert a * a * a <= b * b * a <= b * b * b;
  }

  // ---------------------------------------------------------------------------
  // Level curve

  /** The absolute XP total that must be reached to leave `level`:
      floor(100 * level^1.5), i.e. the largest n with n^2 <= 10000 * level^3. */
  function XpForNextLevel(level: nat): (r: nat)
    ensures r * r <= 10000 * Cube(level) < (r + 1) * (r + 1)
  {
    ISqrt(BaseXp * BaseXp * Cube(level))
  }

  /** The level a lifetime XP total corresponds to:
      floor((xp/100)^(2/3)) + 1, i.e. 1 + the largest k with 10000 * k^3 <= xp^2. */
  function Level(xp: nat): (r: nat)
    ensures r >= 1
    ensures 10000 * Cube(r - 1) <= xp * xp < 10000 * Cube(r)
  {
    var q := xp * xp / (BaseXp * BaseXp);
    var k := ICbrt(q);
    assert 10000 * Cube(k) <= 10000 * q <= xp * xp;
    assert q + 1 <= Cube(k + 1);
    k + 1
  }

  /** The closed-form inverse: a total reaches level L+1 or beyond exactly
      when xp^2 >= 10000 * L^3, i.e. xp >= 100 * L^1.5 over the reals. */
  lemma LevelThreshold(xp: nat, l: nat)
    ensures Level(xp) >= l + 1 <==> xp * xp >= 10000 * Cube(l)
  {
    var r := Level(xp);
    if r >= l + 1 {
      CubeMonotone(l, r - 1);
    } else {
      CubeMonotone(r, l);
    }
  }

  /** Every total below 100 is level 1, and level 1 is only those totals. */
  lemma LevelOneBelowHundred(xp: nat)
    ensures Level(xp) == 1 <==> xp < 100
  {
    LevelThreshold(xp, 1);
    if xp >= 100 {
      SquareMonotone(100, xp);
    } else {
      SquareMonotone(xp, 99);
    }
  }

  /** More XP never lowers the level. */
  lemma LevelMonotone(a: nat, b: nat)
    requires a <= b
    ensures Level(a) <= Level(b)
  {
    var l: nat := Level(a) - 1;
    LevelThreshold(a, l);
    SquareMonotone(a, b);
    LevelThreshold(b, l);
  }

  lemma SquareLessMeansLess(a: nat, b: nat)
    requires a * a < b * b
    ensures a < b
  {
    if a >= b {
      SquareMonotone(b, a);
    }
  }

  lemma MulMonotone(x: int, y: int, z: nat)
    requires x <= y
    ensures x * z <= y * z
  {
  }

  lemma CubeStep(a: nat)
    ensures Cube(a + 1) == Cube(a) + 3 * (a * a) + 3 * a + 1
    ensures Cube(a) < Cube(a + 1)
  {
  }

  /** a^3 < (a+1)^4, written with the square named. */
  lemma CubeBelowFourth(a: nat, b: nat, bb: nat)
    requires b == a + 1 && bb == b * b
    ensures Cube(a) < bb * bb
  {
    CubeStep(a);
    MulMonotone(1, b, b);
    MulMonotone(b, bb, bb);
    assert Cube(b) == bb * b;
  }

  /** A root of 10000 c with c < q^2 stays below 100 q. */
  lemma RootBelow(r: nat, c: nat, q: nat)
    requires r * r <= 10000 * c
    requires c < q * q
    ensures r < 100 * q
  {
    var m := 100 * q;
    assert m * m == 10000 * (q * q);
    SquareLessMeansLess(r, m);
  }

  /** The threshold of level a stays below 100 (a+1)^2. */
  lemma ThresholdBelowSquare(a: nat)
    ensures XpForNextLevel(a) < 100 * (a * a) + 200 * a + 100
  {
    var b := a + 1;
    MulMonotone(0, b, b);
    var bb := b * b;
    CubeBelowFourth(a, b, bb);
    RootBelow(XpForNextLevel(a), Cube(a), bb);
    SquareStep(a);
  }

  lemma SquareStep(a: nat)
    ensures (a + 1) * (a + 1) == a * a + 2 * a + 1
  {
  }

  /** The arithmetic of one step of the curve, over named cubes and squares:
      a root of 10000 c0 lies below any s with 10000 c1 < (s+1)^2 when c1
      exceeds c0 by 3a^2 + 3a + 1 and the root is below 100 (a+1)^2. */
  lemma StepArith(r: nat, s: nat, c0: nat, c1: nat, aa: nat, a: nat)
    requires r * r <= 10000 * c0 < (r + 1) * (r + 1)
    requires 10000 * c1 < (s + 1) * (s + 1)
    requires c1 == c0 + 3 * aa + 3 * a + 1
    requires r < 100 * aa + 200 * a + 100
    ensures r < s
    ensures 10000 * c0 <= s * s
  {
    assert (r + 1) * (r + 1) == r * r + 2 * r + 1;
    SquareLessMeansLess(r + 1, s + 1);
    SquareMonotone(r + 1, s);
  }

  /** The threshold grows from one level to the next. */
  lemma XpForNextLevelStep(a: nat)
    ensures XpForNextLevel(a) < XpForNextLevel(a + 1)
    ensures 10000 * Cube(a) <= XpForNextLevel(a + 1) * XpForNextLevel(a + 1)
  {
    ThresholdBelowSquare(a);
    CubeStep(a);
    MulMonotone(0, a, a);
    StepArith(XpForNextLevel(a), XpForNextLevel(a + 1), Cube(a), Cube(a + 1), a * a, a);
  }

  /** The threshold is strictly increasing in the level. */
  lemma {:induction false} XpForNextLevelIncreasing(a: nat, b: nat)
    requires a < b
    ensures XpForNextLevel(a) < XpForNextLevel(b)
    decreases b - a
  {
    XpForNextLevelStep(a);
    if a + 1 < b {
      XpForNextLevelIncreasing(a + 1, b);
    }
  }

  /** A fresh profile's threshold of 100 is the curve's value at level 1. */
  lemma FirstThreshold()
    ensures XpForNextLevel(1) == 100
  {
    var r := XpForNextLevel(1);
    if r < 100 {
      SquareMonotone(r + 1, 100);
    } else if r > 100 {
      SquareMonotone(101, r);
    }
  }

  /** The threshold of level l already reaches level l by the closed form. */
  lemma ThresholdAboveLowerCube(l: nat)
    requires l >= 1
    ensures 10000 * Cube(l - 1) <= XpForNextLevel(l) * XpForNextLevel(l)
  {
    XpForNextLevelStep(l - 1);
  }

  /** Reaching the threshold of level l (l >= 1) gives level l+1 by the
      closed form only when 10000 l^3 is a perfect square; otherwise the
      floored threshold sits below the real boundary and the closed form
      still says l. */
  lemma LevelAtThreshold(l: nat)
    requires l >= 1
    ensures var t := XpForNextLevel(l);
      Level(t) == (if t * t == 10000 * Cube(l) then l + 1 else l)
  {
    var t := XpForNextLevel(l);
    ThresholdAboveLowerCube(l);
    if t * t == 10000 * Cube(l) {
      CubeStep(l);
      LevelUnique(t, l + 1);
    } else {
      LevelUnique(t, l);
    }
  }

  /** Nothing below the threshold of level l reaches level l+1, and one XP
      past the threshold always does. */
  lemma ThresholdBoundsLevel(l: nat, xp: nat)
    ensures Level(xp) >= l + 1 ==> xp >= XpForNextLevel(l)
    ensures xp > XpForNextLevel(l) ==> Level(xp) >= l + 1
  {
    var t := XpForNextLevel(l);
    LevelThreshold(xp, l);
    if xp < t {
      SquareMonotone(xp + 1, t);
      assert xp * xp < (xp + 1) * (xp + 1);
      assert xp * xp < 10000 * Cube(l);
    } else if xp > t {
      SquareMonotone(t + 1, xp);
      assert xp * xp >= 10000 * Cube(l);
    }
  }

  /** The floor square root is the only n with n^2 <= m < (n+1)^2. */
  lemma ISqrtUnique(m: nat, n: nat)
    requires n * n <= m < (n + 1) * (n + 1)
    ensures ISqrt(m) == n
  {
    var s := ISqrt(m);
    if s < n {
      SquareMonotone(s + 1, n);
    } else if s > n {
      SquareMonotone(n + 1, s);
    }
  }

  /** The closed form is the only level r with 10000 (r-1)^3 <= xp^2 < 10000 r^3. */
  lemma LevelUnique(xp: nat, r: nat)
    requires r >= 1
    requires 10000 * Cube(r - 1) <= xp * xp < 10000 * Cube(r)
    ensures Level(xp) == r
  {
    LevelThreshold(xp, r - 1);
    LevelThreshold(xp, r);
  }

  /** Sample totals on which the two formulas are compared. At level 2 the
      threshold is 282 but 282 XP is still level 2; 800 XP is exactly the
      level-4 boundary. */
  lemma SampleLevels()
    ensures XpForNextLevel(2) == 282 && Level(282) == 2 && Level(283) == 3
    ensures XpForNextLevel(4) == 800 && Level(799) == 4 && Level(800) == 5
    ensures Level(0) == 1 && Level(99) == 1 && Level(100) == 2
  {
    assert Cube(1) == 1 && Cube(2) == 8 && Cube(3) == 27 && Cube(4) == 64 && Cube(5) == 125;
    ISqrtUnique(80000, 282);
    ISqrtUnique(640000, 800);
    LevelUnique(282, 2);
    LevelUnique(283, 3);
    LevelUnique(799, 4);
    LevelUnique(800, 5);
    LevelUnique(0, 1);
    LevelUnique(99, 1);
    LevelUnique(100, 2);
  }
}

=== FILE: json.dfy ===
/** Request bodies as parsed JSON values, and the two JavaScript behaviours
    the handlers rely on: truthiness and object destructuring. */
module Json {

  /** A parsed JSON value. Numbers are kept as integers. */
  datatype Json =
    | JNull
    | JBool(b: bool)
    | JNum(n: int)
    | JStr(s: string)
    | JArr(items: seq<Json>)
    | JObj(fields: map<string, Json>)

  /** JavaScript truthiness of a parsed JSON value: exactly the four falsy
      values a parsed body can hold are null, false, 0 and the empty string;
      arrays and objects, even empty ones, are truthy. */
  function Truthy(v: Json): (r: bool)
    ensures r <==> v !in {JNull, JBool(false), JNum(0), JStr("")}
    ensures v.JArr? || v.JObj? ==> r
  {
    match v
    case JNull => false
    case JBool(b) => b
    case JNum(n) => n != 0
    case JStr(s) => s != ""
    case JArr(_) => true
    case JObj(_) => true
  }

  /** What `const { key } = body` binds. */
  datatype Prop = Throws | Undefined | Value(v: Json)

  /** Destructuring a property: null throws a TypeError, an object yields its
      own member or undefined, and any other value yields undefined.
      This agrees with JavaScript only for keys that no prototype defines,
      such as the `mode`, `accessToken` and `refreshToken` the handlers read:
      an inherited key (`length` on a string, `constructor` on any object)
      would bind the inherited value instead. */
  function Destructure(body: Json, key: string): (r: Prop)
    ensures r == Throws <==> body == JNull
    ensures r.Value? <==> body.JObj? && key in body.fields
    ensures r.Value? ==> r.v == body.fields[key]
  {
    match body
    case JNull => Throws
    case JObj(m) => if key in m then Value(m[key]) else Undefined
    case _ => Undefined
  }

  /** A property read as JavaScript sees it, with undefined as absent. */
  predicate TruthyProp(p: Prop) {
    p.Value? && Truthy(p.v)
  }
}

=== FILE: schemas.dfy ===
/** Validation of a task-creation body: the six declared fields, each with
    its own rule, every failing field reported, unknown keys dropped. */
module Schemas {
  import opened Types
  import opened Json

  datatype Field = Title | Description | CategoryField | DifficultyField | ScheduledStart | ScheduledEnd

  const AllFields: set<Field> :=
    {Title, Description, CategoryField, DifficultyField, ScheduledStart, ScheduledEnd}

  lemma AllFieldsComplete()
    ensures forall f :: f in AllFields
  {
    forall f: Field
      ensures f in AllFields
    {
      match f
      case Title =>
      case Description =>
      case CategoryField =>
      case DifficultyField =>
      case ScheduledStart =>
      case ScheduledEnd =>
    }
  }

  /** The body key each field is read from. */
  function Key(f: Field): string {
    match f
    case Title => "title"
    case Description => "description"
    case CategoryField => "category"
    case DifficultyField => "difficulty"
    case ScheduledStart => "scheduledStart"
    case ScheduledEnd => "scheduledEnd"
  }

  const MinTitleLength: nat := 1
  const MaxTitleLength: nat := 100

  /** A validated task input: only the six declared fields, so no XP or stat
      value supplied by the client can be part of it. */
  datatype TaskInput = TaskInput(
    title: string,
    description: Option<string>,
    category: Category,
    difficulty: Difficulty,
    scheduledStart: string,
    scheduledEnd: string)

  /** The flattened error: a body that is not an object, or the set of
      fields that failed their rule. */
  datatype ValidationError = NotAnObject | FieldErrors(fields: set<Field>)

  /** Whether a string is an ISO 8601 datetime. The check itself is not
      modelled; it is an uninterpreted parameter. */
  type DatetimeCheck = string -> bool

  /** The rule for one field, applied to its (possibly absent) value. The
      title length counts characters. */
  predicate FieldOk(f: Field, v: Option<Json>, isDatetime: DatetimeCheck) {
    match f
    case Title => v.Some? && v.value.JStr? && MinTitleLength <= |v.value.s| <= MaxTitleLength
    case Description => v.None? || v.value.JStr?
    case CategoryField => v.Some? && v.value.JStr? && ParseCategory(v.value.s).Some?
    case DifficultyField => v.Some? && v.value.JStr? && ParseDifficulty(v.value.s).Some?
    case ScheduledStart => v.Some? && v.value.JStr? && isDatetime(v.value.s)
    case ScheduledEnd => v.Some? && v.value.JStr? && isDatetime(v.value.s)
  }

  /** The fields of object `m` that fail their rule. */
  function Invalid(m: map<string, Json>, isDatetime: DatetimeCheck): set<Field> {
    set f | f in AllFields && !FieldOk(f, Lookup(m, Key(f)), isDatetime)
  }

  /** Every rule accepts the fields of object `m`. */
  predicate AllFieldsOk(m: map<string, Json>, isDatetime: DatetimeCheck) {
    forall f :: FieldOk(f, Lookup(m, Key(f)), isDatetime)
  }

  /** Exactly the failing fields are reported, so none are when every rule
      accepts. */
  lemma InvalidExactly(m: map<string, Json>, isDatetime: DatetimeCheck)
    ensures forall f :: f in Invalid(m, isDatetime) <==> !FieldOk(f, Lookup(m, Key(f)), isDatetime)
    ensures Invalid(m, isDatetime) == {} <==> AllFieldsOk(m, isDatetime)
  {
    AllFieldsComplete();
    forall f
      ensures f in Invalid(m, isDatetime) <==> !FieldOk(f, Lookup(m, Key(f)), isDatetime)
    {
      assert f in AllFields;
    }
  }

  /** A task input every rule accepts. No order between start and end is required. */
  predicate ValidInput(t: TaskInput, isDatetime: DatetimeCheck) {
    && MinTitleLength <= |t.title| <= MaxTitleLength
    && isDatetime(t.scheduledStart)
    && isDatetime(t.scheduledEnd)
  }

  /** The value a task input gives field `f` in a body; an absent
      description is an absent key. */
  function FieldJson(t: TaskInput, f: Field): Option<Json> {
    match f
    case Title => Some(JStr(t.title))
    case Description => if t.description.Some? then Some(JStr(t.description.value)) else None
    case CategoryField => Some(JStr(CategoryName(t.category)))
    case DifficultyField => Some(JStr(DifficultyName(t.difficulty)))
    case ScheduledStart => Some(JStr(t.scheduledStart))
    case ScheduledEnd => Some(JStr(t.scheduledEnd))
  }

  /** Two inputs that give every field the same value are the same input. */
  lemma FieldJsonDetermines(t: TaskInput, u: TaskInput)
    requires forall f :: FieldJson(t, f) == FieldJson(u, f)
    ensures t == u
  {
    assert FieldJson(t, Title) == FieldJson(u, Title);
    assert FieldJson(t, Description) == FieldJson(u, Description);
    assert FieldJson(t, CategoryField) == FieldJson(u, CategoryField);
    assert FieldJson(t, DifficultyField) == FieldJson(u, DifficultyField);
    assert FieldJson(t, ScheduledStart) == FieldJson(u, ScheduledStart);
    assert FieldJson(t, ScheduledEnd) == FieldJson(u, ScheduledEnd);
    NamesRoundTrip(Beast, t.category, t.difficulty);
    NamesRoundTrip(Beast, u.category, u.difficulty);
  }

  /** A task input written back as a body object. */
  function ToJson(t: TaskInput): Json {
    var m := map[
      "title" := JStr(t.title),
      "category" := JStr(CategoryName(t.category)),
      "difficulty" := JStr(DifficultyName(t.difficulty)),
      "scheduledStart" := JStr(t.scheduledStart),
      "scheduledEnd" := JStr(t.scheduledEnd)];
    JObj(if t.description.Some? then m["description" := JStr(t.description.value)] else m)
  }

  /** The body written from an input holds, under each field's key, exactly
      that field's value. */
  lemma ToJsonFields(t: TaskInput)
    ensures forall f :: Lookup(ToJson(t).fields, Key(f)) == FieldJson(t, f)
  {
    forall f
      ensures Lookup(ToJson(t).fields, Key(f)) == FieldJson(t, f)
    {
      match f
      case Title =>
      case Description =>
      case CategoryField =>
      case DifficultyField =>
      case ScheduledStart =>
      case ScheduledEnd =>
    }
  }

  /** The input read off an object every rule accepts. */
  function ReadInput(m: map<string, Json>, isDatetime: DatetimeCheck): (t: TaskInput)
    requires AllFieldsOk(m, isDatetime)
    ensures ValidInput(t, isDatetime)
  {
    assert FieldOk(Title, Lookup(m, Key(Title)), isDatetime);
    assert FieldOk(Description, Lookup(m, Key(Description)), isDatetime);
    assert FieldOk(CategoryField, Lookup(m, Key(CategoryField)), isDatetime);
    assert FieldOk(DifficultyField, Lookup(m, Key(DifficultyField)), isDatetime);
    assert FieldOk(ScheduledStart, Lookup(m, Key(ScheduledStart)), isDatetime);
    assert FieldOk(ScheduledEnd, Lookup(m, Key(ScheduledEnd)), isDatetime);
    TaskInput(
      m["title"].s,
      if "description" in m then Some(m["description"].s) else None,
      ParseCategory(m["category"].s).value,
      ParseDifficulty(m["difficulty"].s).value,
      m["scheduledStart"].s,
      m["scheduledEnd"].s)
  }

  /** The input read off an object gives each field the object's value. */
  lemma ReadInputAgrees(m: map<string, Json>, isDatetime: DatetimeCheck)
    requires AllFieldsOk(m, isDatetime)
    ensures forall f :: FieldJson(ReadInput(m, isDatetime), f) == Lookup(m, Key(f))
  {
    var t := ReadInput(m, isDatetime);
    forall f
      ensures FieldJson(t, f) == Lookup(m, Key(f))
    {
      assert FieldOk(f, Lookup(m, Key(f)), isDatetime);
    }
  }

  /** `TaskSchema.safeParse(body)`: the body must be an object; then every
      field is checked and all failing fields are reported together. On
      success the result is a valid input that agrees with the body on each
      declared field and ignores every other key. */
  function ParseTask(body: Json, isDatetime: DatetimeCheck): (r: Result<TaskInput, ValidationError>)
    ensures !body.JObj? ==> r == Err(NotAnObject)
    ensures body.JObj? ==>
      (r.Ok? <==> forall f :: FieldOk(f, Lookup(body.fields, Key(f)), isDatetime))
    ensures body.JObj? && r.Err? ==>
      && r.error.FieldErrors?
      && r.error.fields != {}
      && forall f :: f in r.error.fields <==> !FieldOk(f, Lookup(body.fields, Key(f)), isDatetime)
    ensures r.Ok? ==>
      && ValidInput(r.value, isDatetime)
      && forall f :: Lookup(body.fields, Key(f)) == Lookup(ToJson(r.value).fields, Key(f))
  {
    match body
    case JObj(m) =>
      var bad := Invalid(m, isDatetime);
      InvalidExactly(m, isDatetime);
      if bad == {} then
        var t := ReadInput(m, isDatetime);
        ReadInputAgrees(m, isDatetime);
        ToJsonFields(t);
        Ok(t)
      else
        Err(FieldErrors(bad))
    case _ => Err(NotAnObject)
  }

  /** A valid input survives being sent as a body: parsing it gives it back. */
  lemma ParseToJson(t: TaskInput, isDatetime: DatetimeCheck)
    requires ValidInput(t, isDatetime)
    ensures ParseTask(ToJson(t), isDatetime) == Ok(t)
  {
    var m := ToJson(t).fields;
    ToJsonFields(t);
    NamesRoundTrip(Beast, t.category, t.difficulty);
    forall f
      ensures FieldOk(f, Lookup(m, Key(f)), isDatetime)
    {
      assert Lookup(m, Key(f)) == FieldJson(t, f);
    }
    var r := ParseTask(ToJson(t), isDatetime).value;
    ToJsonFields(r);
    FieldJsonDetermines(t, r);
  }

  /** Keys other than the six declared ones (an `xpReward`, say) never change
      the outcome. */
  lemma UndeclaredKeyIgnored(m: map<string, Json>, key: string, v: Json, isDatetime: DatetimeCheck)
    requires forall f :: Key(f) != key
    ensures ParseTask(JObj(m[key := v]), isDatetime) == ParseTask(JObj(m), isDatetime)
  {
    var m' := m[key := v];
    assert forall f :: Lookup(m', Key(f)) == Lookup(m, Key(f));
    InvalidExactly(m, isDatetime);
    InvalidExactly(m', isDatetime);
    assert Invalid(m', isDatetime) == Invalid(m, isDatetime);
    if AllFieldsOk(m, isDatetime) {
      ReadInputAgrees(m, isDatetime);
      ReadInputAgrees(m', isDatetime);
      FieldJsonDetermines(ReadInput(m', isDatetime), ReadInput(m, isDatetime));
    }
  }

  /** A title is accepted exactly when it has between 1 and 100 characters,
      whatever the other fields hold. */
  lemma TitleRule(m: map<string, Json>, title: string, isDatetime: DatetimeCheck)
    ensures var r := ParseTask(JObj(m["title" := JStr(title)]), isDatetime);
      (1 <= |title| <= 100) <==> (r.Ok? || Title !in r.error.fields)
  {
    var m' := m["title" := JStr(title)];
    var r := ParseTask(JObj(m'), isDatetime);
    assert Lookup(m', Key(Title)) == Some(JStr(title));
  }
}

=== FILE: strings.dfy ===
/** The string operations the request handlers use: prefix test,
    `String.prototype.split` with a non-empty separator, and ASCII upper-casing. */
module Strings {

  predicate StartsWith(s: string, prefix: string) {
    |prefix| <= |s| && s[..|prefix|] == prefix
  }

  /** `sep` occurs somewhere inside `s`. */
  predicate Contains(s: string, sep: string) {
    exists i :: 0 <= i <= |s| && StartsWith(s[i..], sep)
  }

  /** The text of `s` before the first occurrence of `sep`, or all of `s`
      when `sep` does not occur. */
  function FirstPiece(s: string, sep: string): (r: string)
    requires |sep| > 0
    ensures r <= s
    ensures r == s || StartsWith(s[|r|..], sep)
    decreases |s|
  {
    if |s| == 0 || StartsWith(s, sep) then ""
    else
      var rest := FirstPiece(s[1..], sep);
      assert s[1 + |rest|..] == s[1..][|rest|..];
      [s[0]] + rest
  }

  /** No occurrence of the separator starts inside the first piece: it ends
      at the FIRST occurrence. */
  lemma {:induction false} FirstPieceIsFirst(s: string, sep: string)
    requires |sep| > 0
    ensures forall i :: 0 <= i < |FirstPiece(s, sep)| ==> !StartsWith(s[i..], sep)
    decreases |s|
  {
    if |s| > 0 && !StartsWith(s, sep) {
      FirstPieceIsFirst(s[1..], sep);
      forall i | 0 <= i < |FirstPiece(s, sep)|
        ensures !StartsWith(s[i..], sep)
      {
        if i > 0 {
          assert s[i..] == s[1..][i - 1..];
        }
      }
    }
  }

  /** A first piece never contains the separator. */
  lemma FirstPieceHasNoSeparator(s: string, sep: string)
    requires |sep| > 0
    ensures !Contains(FirstPiece(s, sep), sep)
  {
    var r := FirstPiece(s, sep);
    FirstPieceIsFirst(s, sep);
    if i :| 0 <= i <= |r| && StartsWith(r[i..], sep) {
      assert i < |r|;
      assert s[i..][..|sep|] == r[i..][..|sep|];
    }
  }

  /** `s.split(sep)` for a non-empty separator: the pieces between
      successive non-overlapping occurrences, scanning left to right. */
  function Split(s: string, sep: string): (r: seq<string>)
    requires |sep| > 0
    ensures |r| >= 1
    ensures r[0] == FirstPiece(s, sep)
    decreases |s|
  {
    var p := FirstPiece(s, sep);
    if p == s then [s]
    else [p] + Split(s[|p| + |sep|..], sep)
  }

  /** No piece of a split contains the separator. */
  lemma {:induction false} SplitPiecesHaveNoSeparator(s: string, sep: string)
    requires |sep| > 0
    ensures forall i :: 0 <= i < |Split(s, sep)| ==> !Contains(Split(s, sep)[i], sep)
    decreases |s|
  {
    var p := FirstPiece(s, sep);
    FirstPieceHasNoSeparator(s, sep);
    if p != s {
      var rest := s[|p| + |sep|..];
      var pieces := Split(rest, sep);
      SplitPiecesHaveNoSeparator(rest, sep);
      forall i | 0 <= i < |Split(s, sep)|
        ensures !Contains(Split(s, sep)[i], sep)
      {
        if i > 0 {
          assert Split(s, sep)[i] == pieces[i - 1];
        }
      }
    }
  }

  /** `parts.join(sep)`. */
  function Join(parts: seq<string>, sep: string): string
    requires |parts| >= 1
  {
    if |parts| == 1 then parts[0]
    else parts[0] + sep + Join(parts[1..], sep)
  }

  lemma JoinCons(p: string, sep: string, pieces: seq<string>)
    requires |pieces| >= 1
    ensures Join([p] + pieces, sep) == p + sep + Join(pieces, sep)
  {
    assert ([p] + pieces)[1..] == pieces;
  }

  /** A string whose prefix `p` is followed by `sep` is `p`, `sep` and the rest. */
  lemma Reassemble(s: string, p: string, sep: string)
    requires p <= s && StartsWith(s[|p|..], sep)
    ensures s == p + sep + s[|p| + |sep|..]
  {
    assert s[|p|..|p| + |sep|] == s[|p|..][..|sep|];
  }

  /** A split that finds the separator is the first piece followed by the
      split of the text after the separator. */
  lemma SplitCons(s: string, sep: string)
    requires |sep| > 0 && FirstPiece(s, sep) != s
    ensures var p := FirstPiece(s, sep);
      Split(s, sep) == [p] + Split(s[|p| + |sep|..], sep)
  {
  }

  /** Joining the pieces back with the separator restores the string. */
  lemma {:induction false} JoinSplit(s: string, sep: string)
    requires |sep| > 0
    ensures Join(Split(s, sep), sep) == s
    decreases |s|
  {
    var p := FirstPiece(s, sep);
    if p != s {
      var rest := s[|p| + |sep|..];
      SplitCons(s, sep);
      JoinSplit(rest, sep);
      JoinCons(p, sep, Split(rest, sep));
      Reassemble(s, p, sep);
    }
  }

  /** When `s` begins with the separator, the split has an empty first piece
      and a second piece that is the text after the prefix up to the next
      occurrence. */
  lemma SplitAfterLeadingSeparator(s: string, sep: string)
    requires |sep| > 0
    requires StartsWith(s, sep)
    ensures |Split(s, sep)| >= 2
    ensures Split(s, sep)[0] == ""
    ensures Split(s, sep)[1] == FirstPiece(s[|sep|..], sep)
  {
    assert FirstPiece(s, sep) == "";
  }

  function UpperChar(c: char): char {
    if 'a' <= c <= 'z' then (c as int - 32) as char else c
  }

  /** `toUpperCase` on text made of ASCII letters. */
  function AsciiUpper(s: string): (r: string)
    ensures |r| == |s|
    ensures forall i :: 0 <= i < |s| ==> r[i] == UpperChar(s[i])
  {
    if |s| == 0 then "" else [UpperChar(s[0])] + AsciiUpper(s[1..])
  }

  /** Upper-casing twice is upper-casing once. */
  lemma AsciiUpperIdempotent(s: string)
    ensures AsciiUpper(AsciiUpper(s)) == AsciiUpper(s)
  {
  }
}

=== FILE: types.dfy ===
/** The records and closed enumerations shared by the planner's rules and
    request handlers: a user's profile, a task ("mission"), and the mode,
    category, difficulty and status enumerations with their wire names. */
module Types {

  datatype Option<+T> = None | Some(value: T)

  datatype Result<+T, +E> = Ok(value: T) | Err(error: E)

  /** The entry stored under k, or None when there is none: a missing
      document, or an absent (undefined) object member. */
  function Lookup<K, V>(m: map<K, V>, k: K): Option<V> {
    if k in m then Some(m[k]) else None
  }

  /** Milliseconds since the epoch, as produced by the server clock. */
  type Time = int

  /** The XP multiplier preset a user selects; a new profile starts in Beast. */
  datatype Mode = Monk | Recovery | Beast

  datatype Category = Study | Gym | Work | Life | Health

  datatype Difficulty = Easy | Medium | Hard

  datatype Status = Pending | Completed | Failed

  /** The four character attributes a completed task can raise. */
  datatype StatKind = Intelligence | Strength | Discipline | Balance

  datatype Stats = Stats(intelligence: int, strength: int, discipline: int, balance: int)

  /** A user document. `updatedAt` is not declared by the profile type but is
      written into the same document by the mode switch. */
  datatype UserProfile = UserProfile(
    uid: string,
    email: string,
    displayName: string,
    level: int,
    currentXp: int,
    nextLevelXp: int,
    stats: Stats,
    mode: Mode,
    currency: int,
    updatedAt: Option<Time>)

  /** Display metadata stored on a task: which stat it is said to reward. */
  datatype StatReward = StatReward(kind: StatKind, amount: int)

  /** A task document. Its id is the key it is stored under, not a field.
      The scheduled times are kept as the ISO strings they were parsed from. */
  datatype Task = Task(
    userId: string,
    title: string,
    description: string,
    category: Category,
    difficulty: Difficulty,
    status: Status,
    scheduledStart: string,
    scheduledEnd: string,
    xpReward: int,
    statReward: StatReward,
    createdAt: Time,
    calendarEventId: Option<string>)

  function ModeName(m: Mode): string {
    match m
    case Monk => "monk"
    case Recovery => "recovery"
    case Beast => "beast"
  }

  function CategoryName(c: Category): string {
    match c
    case Study => "study"
    case Gym => "gym"
    case Work => "work"
    case Life => "life"
    case Health => "health"
  }

  function DifficultyName(d: Difficulty): string {
    match d
    case Easy => "easy"
    case Medium => "medium"
    case Hard => "hard"
  }

  /** Membership of a string in the mode enumeration, returning the member. */
  function ParseMode(s: string): (r: Option<Mode>)
    ensures r.Some? ==> ModeName(r.value) == s
    ensures r.None? ==> forall m :: ModeName(m) != s
  {
    if s == "monk" then Some(Monk)
    else if s == "recovery" then Some(Recovery)
    else if s == "beast" then Some(Beast)
    else None
  }

  function ParseCategory(s: string): (r: Option<Category>)
    ensures r.Some? ==> CategoryName(r.value) == s
    ensures r.None? ==> forall c :: CategoryName(c) != s
  {
    if s == "study" then Some(Study)
    else if s == "gym" then Some(Gym)
    else if s == "work" then Some(Work)
    else if s == "life" then Some(Life)
    else if s == "health" then Some(Health)
    else None
  }

  function ParseDifficulty(s: string): (r: Option<Difficulty>)
    ensures r.Some? ==> DifficultyName(r.value) == s
    ensures r.None? ==> forall d :: DifficultyName(d) != s
  {
    if s == "easy" then Some(Easy)
    else if s == "medium" then Some(Medium)
    else if s == "hard" then Some(Hard)
    else None
  }

  /** Each enumeration's names parse back to the member they name; in
      particular no two members share a name. */
  lemma NamesRoundTrip(m: Mode, c: Category, d: Difficulty)
    ensures ParseMode(ModeName(m)) == Some(m)
    ensures ParseCategory(CategoryName(c)) == Some(c)
    ensures ParseDifficulty(DifficultyName(d)) == Some(d)
  {
  }
}

=== FILE: user_mode.dfy ===
/** POST /api/user/mode: gate, mode validation, and an update of the
    caller's mode alone. */
module UserMode {
  import opened Types
  import opened Json
  import opened Auth
  import opened Gamification
  import opened Api

  /** The mode a destructured `mode` property names, if it names one. */
  function RequestedMode(p: Prop): (r: Option<Mode>)
    ensures r.Some? <==> p.Value? && p.v.JStr? && ParseMode(p.v.s).Some?
    ensures r.Some? ==> JStr(ModeName(r.value)) == p.v
  {
    if p.Value? && p.v.JStr? then ParseMode(p.v.s) else None
  }

  /** The handler. Updating a profile that does not exist throws in the
      store, which the handler answers with 500. */
  function SetMode(s: Store, header: Option<string>, body: Option<Json>, verify: Verifier, now: Time): (out: Outcome)
    ensures out.response.status in {200, 400, 401, 500}
    ensures out.response.status == 401 <==> BearerToken(header).None?
    ensures out.response.status != 200 ==> out.store == s
    ensures out.response.status == 400 <==>
      && Authenticate(header, verify).Verified? && body.Some? && body.value != JNull
      && RequestedMode(Destructure(body.value, "mode")).None?
    ensures out.response.status == 200 <==>
      && Authenticate(header, verify).Verified? && body.Some? && body.value != JNull
      && RequestedMode(Destructure(body.value, "mode")).Some?
      && Authenticate(header, verify).token.uid in s.users
    ensures out.response.status == 200 ==>
      var uid := Authenticate(header, verify).token.uid;
      var m := RequestedMode(Destructure(body.value, "mode")).value;
      && out.response.body == ModeChanged(m)
      && out.store.tasks == s.tasks
      && out.store.secrets == s.secrets
      && out.store.users.Keys == s.users.Keys
      && (forall u :: u in s.users && u != uid ==> out.store.users[u] == s.users[u])
      && out.store.users[uid].mode == m
      && out.store.users[uid].updatedAt == Some(now)
      && out.store.users[uid].(mode := s.users[uid].mode, updatedAt := s.users[uid].updatedAt) == s.users[uid]
  {
    match Authenticate(header, verify)
    case NoBearer => Outcome(s, Unauthorized)
    case VerificationFailed => Outcome(s, ServerError)
    case Verified(token) =>
      match body
      case None => Outcome(s, ServerError)   // the body is not JSON
      case Some(json) =>
        var requested := Destructure(json, "mode");
        if requested.Throws? then
          Outcome(s, ServerError)              // destructuring null
        else
          match RequestedMode(requested)
          case None => Outcome(s, Response(400, ErrorMessage("Invalid mode")))
          case Some(m) =>
            if token.uid !in s.users then
              Outcome(s, ServerError)
            else
              var p := s.users[token.uid];
              Outcome(s.(users := s.users[token.uid := p.(mode := m, updatedAt := Some(now))]),
                      Response(200, ModeChanged(m)))
  }

  /** Choosing a mode changes what the caller earns per task from then on,
      and nothing about level, XP or stats. */
  lemma ModeGovernsFutureXP(s: Store, header: Option<string>, body: Option<Json>, verify: Verifier, now: Time, task: Task)
    ensures var out := SetMode(s, header, body, verify, now);
      out.response.status == 200 ==>
        var uid := Authenticate(header, verify).token.uid;
        var before := s.users[uid];
        var after := out.store.users[uid];
        var sent := Destructure(body.value, "mode").v.s;
        && (sent == "monk" ==> TaskXP(task, after.mode) == task.xpReward * 6 / 5)
        && (sent == "recovery" ==> TaskXP(task, after.mode) == task.xpReward / 2)
        && (sent == "beast" ==> TaskXP(task, after.mode) == task.xpReward)
        && after.level == before.level
        && after.currentXp == before.currentXp
        && after.nextLevelXp == before.nextLevelXp
        && after.stats == before.stats
  {
  }

  /** Sending the same mode twice, at any two clock readings, gives the same
      answer and leaves the store as sending it once, except the caller's
      timestamp, which the second request sets to its own reading. */
  lemma SetModeIdempotent(s: Store, header: Option<string>, body: Option<Json>, verify: Verifier, now1: Time, now2: Time)
    ensures var once := SetMode(s, header, body, verify, now1);
      var twice := SetMode(once.store, header, body, verify, now2);
      && twice.response == once.response
      && twice.store.tasks == once.store.tasks
      && twice.store.secrets == once.store.secrets
      && twice.store.users.Keys == once.store.users.Keys
      && (forall u :: u in once.store.users ==>
            twice.store.users[u].(updatedAt := once.store.users[u].updatedAt) == once.store.users[u])
      && (once.response.status == 200 ==>
            twice.store.users[Authenticate(header, verify).token.uid].updatedAt == Some(now2))
      && (now1 == now2 ==> twice == once)
  {
  }

  /** A body naming no mode of the enumeration is rejected whatever else it holds. */
  lemma SampleRejectedModes(s: Store, header: Option<string>, verify: Verifier, now: Time)
    requires Authenticate(header, verify).Verified?
    ensures SetMode(s, header, Some(JObj(map["mode" := JStr("turbo")])), verify, now).response.status == 400
    ensures SetMode(s, header, Some(JObj(map["mode" := JStr("Monk")])), verify, now).response.status == 400
    ensures SetMode(s, header, Some(JObj(map[])), verify, now).response.status == 400
    ensures SetMode(s, header, Some(JNum(3)), verify, now).response.status == 400
    ensures SetMode(s, header, Some(JNull), verify, now).response.status == 500
  {
  }
}
